=== FILE: README.md ===
# Prediction-market viewer: live order book and display rules, in Dafny

This project models the logic of a prediction-market viewer. Its centre is the
live order book. A stream delivers messages, and each message is an array of
events. The type guards sort each event into one of three kinds: a full-book
snapshot, an incremental `price_change` batch, or an unknown event. A snapshot
replaces one asset's book in a registry keyed by asset id. A batch edits an
existing book level by level and then stamps it with the batch's timestamp and
hash. The levels a batch edits are matched by price rounded to 5 decimals. A
read-only projection sorts the bids descending and the asks ascending, then
pairs them row by row. It shows at most the panel's load size of rows (10 or
20), and no more rows than the longer side has levels.

Around that core the project models the smaller rules of the viewer:
- the price chart: the time-window filter, point processing, colour choice,
  the "can draw" check and the tooltip's binary search;
- the top-holders panel: display names, the ten-item collapse and the yes/no
  split;
- the search box's keyboard selection state machine;
- the event card: open markets, tiles per row, the collapse rule and volume sums;
- the percentage and volume formatting rules;
- the avatar gradient hues.

Modules, one per source file or component:
- `OrderBookTypes`, `PriceLevels`, `OrderBook`, `BookProjection` model
  `src/components/orderBook.tsx` and `src/interfaces/orderBookInterfaces.ts`.
  The registry and its handlers are the class `OrderBook.OrderBookPanel`. Its
  methods are proved against the pure functions `ApplyEvent`, `ApplyEvents`
  and `ApplyChanges`. The lemmas about those functions state the properties.
- `PriceChart` models `src/components/graphvisualizer.tsx`.
- `TopHolders` models `src/components/topholder.tsx`.
- `SearchBar` models `src/components/SearchBar.tsx` as the class `SearchBox`.
- `EventDisplayer` models `src/components/EventDisplayer.tsx`.
- `FormatNumber` models `src/helpTS/formatNumber.ts`.
- `Gradient` models `src/helpTS/generateGradient.ts`.
- Helpers: `Wrappers` (Option), `JsMath` (`Math.round`), `Sequences`, `Sorting` (insertion sort by a
  numeric key, used for every `Array.prototype.sort` call), `DecimalText`
  (how a template literal renders an integer).

Numbers are `real`. `Math.round(x)` is `floor(x + 1/2)`. The price key
`Math.round(p * 1e5) / 1e5` becomes the integer tick `PriceLevels.Key(p)`.
Two rounded prices are `===` exactly when their ticks are equal. Dates are
integer milliseconds, and "now" is a parameter.

Five behaviours of the code are worth stating plainly:
- A `price_change` event with an empty `changes` array still passes the
  batch guard (src/components/orderBook.tsx:12). It stamps the book with the
  event's timestamp and hash and changes no level (`OrderBookTypes.Classify`,
  `OrderBook.BatchStampsBook`).
- A snapshot stores the wire levels as given. Their prices are not rounded
  (src/components/orderBook.tsx:54-61, `OrderBook.SnapshotReplacesBook`).
- Because snapshot prices are not rounded, one side can hold two levels on
  the same tick. A size-0 entry at that tick then removes only the first of
  them (src/components/orderBook.tsx:85-89,
  `PriceLevels.SharedTickRemovesFirstOnly`). The per-tick lemmas about
  batches assume sides whose ticks are unique.
- The prices 0.320004999 and 0.320005001 fall on the ticks 32000 and 32001,
  so a batch treats them as two levels (src/components/orderBook.tsx:83,
  `PriceLevels.HalfTickApart`).
- Each row's total is that level's own `size * price`, not a running sum
  (src/components/orderBook.tsx:166, 178; `BookProjection.RowShowsBookLevels`).

## Model

| member | source | states |
|---|---|---|
| OrderBookTypes.Classify | src/components/orderBook.tsx:7-13 | an event is a snapshot iff it is a `book` event with both a bids and an asks array; it is a batch iff it is a `price_change` event with a changes array (possibly empty); it is unknown iff neither guard holds |
| OrderBookTypes.GuardsExclusive | src/components/orderBook.tsx:53-68 | no event passes both guards, so each event falls in exactly one class |
| OrderBookTypes.ToUpper | src/components/orderBook.tsx:80 | upper-casing keeps the length and maps exactly the letters a-z to A-Z |
| OrderBookTypes.SideSpellings | src/interfaces/orderBookInterfaces.ts:17 | `BUY`, `buy` and `Buy` select the bids; `SELL`, `sell` and `Sell` do not |
| OrderBookTypes.IsBuyCaseInsensitive | src/components/orderBook.tsx:80-82 | a side selects the bids iff it spells "buy" in any mix of cases |
| PriceLevels.NormalizeIdempotent | src/components/orderBook.tsx:83-84 | rounding a rounded price changes nothing: its key and its value are the same again |
| PriceLevels.KeyIsNearestTick | src/components/orderBook.tsx:83 | the key is the tick within half a tick of `price * 1e5` |
| PriceLevels.HalfTickApart | src/components/orderBook.tsx:83 | 0.320004999 and 0.320005001 round to the different ticks 32000 and 32001 |
| PriceLevels.FindIndex | src/components/orderBook.tsx:85 | the result is -1 iff no level rounds to the key; otherwise it is the first index whose level rounds to the key |
| PriceLevels.SizeAt | src/components/orderBook.tsx:85 | the size at a tick is absent iff no level rounds to it; otherwise it is the size of a level at that tick |
| PriceLevels.ZeroSizeRemovesFirstMatch | src/components/orderBook.tsx:87-90 | size 0 removes exactly the first level at the change's tick, keeping the order of the rest; with no match the side is unchanged |
| PriceLevels.NonZeroSizeUpserts | src/components/orderBook.tsx:91-96 | a non-zero size overwrites only the first matching level's size and keeps its price; with no match it appends the level with the unrounded price |
| PriceLevels.ApplyLevelChange | src/components/orderBook.tsx:83-97 | one entry changes a side's length by at most one; size 0 never grows it and a non-zero size never shrinks it |
| PriceLevels.ApplyLevelChangeBounds | src/components/orderBook.tsx:87-96 | one edit changes the length by at most one and never grows the side for size 0; every level afterwards was there before or carries the new size |
| PriceLevels.RemoveKeepsUnique | src/components/orderBook.tsx:88-89 | deleting one level keeps ticks unique |
| PriceLevels.AppendKeepsUnique | src/components/orderBook.tsx:95 | appending a level at a tick no level has keeps ticks unique |
| PriceLevels.ApplyLevelChangeKeepsUnique | src/components/orderBook.tsx:83-96 | if no two levels shared a tick before an edit, none do after |
| PriceLevels.SharedTickRemovesFirstOnly | src/components/orderBook.tsx:83-90 | bids 0.320001 x 1 and 0.320002 x 2 share tick 32000; a size-0 entry at 0.32 removes only the first, and the tick still shows size 2 |
| PriceLevels.SizeAtUnique | src/components/orderBook.tsx:85 | with unique ticks, the size at a tick is the size of the one level at that tick |
| PriceLevels.SizeAtAfterRemove | src/components/orderBook.tsx:88-89 | from a side with unique ticks, after a removal the removed tick has no level and every other tick keeps its size |
| PriceLevels.SizeAtAfterAppend | src/components/orderBook.tsx:95 | from a side with unique ticks, appending at a fresh tick shows the new size there and keeps every other tick |
| PriceLevels.SizeAtAfterOverwrite | src/components/orderBook.tsx:93 | from a side with unique ticks, an overwrite shows the new size at its tick and keeps every other tick |
| PriceLevels.SizeAtAfterChange | src/components/orderBook.tsx:83-97 | from a side with unique ticks, after one edit the change's tick holds the written size (none for size 0); every other tick is unchanged |
| OrderBook.ApplyChanges | src/components/orderBook.tsx:77-98 | a batch of `n` entries changes the total number of levels on both sides by at most `n` |
| OrderBook.ChangeEditsOneSide | src/components/orderBook.tsx:80-82 | an entry whose upper-cased side is `BUY` edits only the bids; any other side edits only the asks |
| OrderBook.BatchLeavesOtherSide | src/components/orderBook.tsx:77-98 | a batch with no BUY entry leaves the bids as they were; a batch of only BUY entries leaves the asks as they were |
| OrderBook.BatchKeepsUnique | src/components/orderBook.tsx:77-98 | a batch applied to sides with unique ticks leaves both sides with unique ticks |
| OrderBook.BatchLastWriteWins | src/components/orderBook.tsx:77-98 | from sides with unique ticks, a batch keeps ticks unique; afterwards each tick's size equals the last entry for that side and tick (no level if that size was 0), or the old size when no entry touched it |
| OrderBook.LastZeroLeavesNoLevel | src/components/orderBook.tsx:87-90 | from sides with unique ticks, if a batch's last entry has size 0, its side has no level at that tick afterwards |
| OrderBook.ZeroSizeEmptiesSingleBid | src/components/orderBook.tsx:87-90 | a size-0 BUY at the only bid's price leaves no bids and the same asks |
| OrderBook.SameBatchLastWriteWins | src/components/orderBook.tsx:77-98 | SELL entries at 0.40 with sizes 10 then 20 in one batch leave size 20 at 0.40 |
| OrderBook.ApplyEvent | src/components/orderBook.tsx:53-113 | one event never removes a book; a new book appears only under a snapshot's own asset id |
| OrderBook.ApplyEvents | src/components/orderBook.tsx:52-114 | after a message, every book that was not there before is the asset of some snapshot event in the message |
| OrderBook.UnknownEventIgnored | src/components/orderBook.tsx:111-113 | an event that passes neither guard leaves the whole registry unchanged |
| OrderBook.OrphanBatchDropped | src/components/orderBook.tsx:71-72 | a batch for an asset with no book leaves the registry unchanged and creates no entry |
| OrderBook.SnapshotReplacesBook | src/components/orderBook.tsx:54-66 | a snapshot adds its asset id to the keys and stores the wire bids and asks with the event's market, timestamp and hash; every other book is untouched |
| OrderBook.BatchStampsBook | src/components/orderBook.tsx:100-109 | a batch for a known asset keeps the keys, sets the book's timestamp and hash to the event's, keeps its market and asset id, applies the entries in order, and leaves every other book alone |
| OrderBook.ApplyEventsKeyedByAsset | src/components/orderBook.tsx:52-114 | processing any events keeps every book stored under its own asset id |
| OrderBook.ApplyEventsKeepsAssets | src/components/orderBook.tsx:52-114 | processing events never removes a book |
| OrderBook.OrderBookPanel.constructor | src/components/orderBook.tsx:27-29 | the panel starts with no books, not loaded, and a load size of 10 |
| OrderBook.OrderBookPanel.ApplySnapshot | src/components/orderBook.tsx:53-67 | stores the snapshot book under its asset id and sets `loaded` |
| OrderBook.OrderBookPanel.ApplyPriceChange | src/components/orderBook.tsx:68-110 | the copy-then-loop handler leaves the registry equal to `ApplyEvent` of the old registry; `loaded` and the load size are unchanged |
| OrderBook.OrderBookPanel.HandleEvent | src/components/orderBook.tsx:53-113 | one event updates the registry as `ApplyEvent` says; `loaded` becomes true exactly on a snapshot |
| OrderBook.OrderBookPanel.OnMessage | src/components/orderBook.tsx:50-115 | a message's events are applied in array order (`ApplyEvents`); `loaded` holds afterwards iff it held before or the message had a snapshot |
| OrderBook.OrderBookPanel.ToggleLoadSize | src/components/orderBook.tsx:190-193 | the load size switches between 10 and 20; nothing else changes |
| Sorting.SortBy | src/components/orderBook.tsx:127-128 | the result is ordered by the key and is a permutation of the input |
| BookProjection.SortedBids | src/components/orderBook.tsx:127 | sorted bids are non-increasing in price and a permutation of the stored bids |
| BookProjection.SortedAsks | src/components/orderBook.tsx:128 | sorted asks are non-decreasing in price and a permutation of the stored asks |
| BookProjection.BookRows | src/components/orderBook.tsx:127-150 | no rows without a book; otherwise `min(max(#bids, #asks), loadSize)` rows, row `i` pairing the `i`-th best bid with the `i`-th best ask |
| BookProjection.RowShowsBookLevels | src/components/orderBook.tsx:151-179 | row `i`'s bid cell is filled iff the book has more than `i` bids (likewise asks); a filled cell shows a level of its side of the book and that level's own `size * price` |
| BookProjection.RowsAreRanked | src/components/orderBook.tsx:127-152 | every row has a bid or an ask; filled bid cells run in descending price and filled ask cells in ascending price, with no gaps |
| BookProjection.SingleLevelBook | src/components/orderBook.tsx:127-152 | a book with one bid at 0.32 x 100 and one ask at 0.35 x 50 shows exactly one row with those levels |
| PriceChart.FilterByInterval | src/components/graphvisualizer.tsx:336-356 | every point the filter keeps satisfies `now - t*1000 <= window` (or the interval is `all`); each point occurs in the result exactly as often as in the input when it satisfies that test, and not at all otherwise |
| PriceChart.FilterIsSubsequence | src/components/graphvisualizer.tsx:336 | the filter only removes points and keeps their order |
| PriceChart.FilterAllKeepsEverything | src/components/graphvisualizer.tsx:351-354 | `all` keeps every point |
| PriceChart.WindowsNested | src/components/graphvisualizer.tsx:341-350 | a point kept for a shorter interval is kept for every longer one |
| PriceChart.FilterNested | src/components/graphvisualizer.tsx:340-356 | the points kept for a shorter interval are a subsequence of those kept for a longer one |
| PriceChart.ValidPoints | src/components/graphvisualizer.tsx:72-82 | every processed point comes from a raw point whose `t` and `p` both parsed, with the date being `t` seconds |
| PriceChart.ValidPointsComplete | src/components/graphvisualizer.tsx:72-82 | each raw point whose `t` and `p` both parse gives exactly one processed point, counted with multiplicity, and no other raw point gives one |
| PriceChart.ProcessPoints | src/components/graphvisualizer.tsx:72-83 | processed points are sorted ascending by date and are a permutation of the valid points |
| PriceChart.DatasetColor | src/components/graphvisualizer.tsx:86 | a non-empty own colour wins; otherwise the colour is a palette entry; with an empty palette there is none |
| PriceChart.DefaultColorsCycle | src/components/graphvisualizer.tsx:86 | under the default palette, datasets ten places apart get the same colour |
| PriceChart.DefaultColorAt | src/components/graphvisualizer.tsx:86 | a dataset without its own colour (none or empty) at index `i` gets palette entry `i mod` the palette's length, for any non-empty palette; under the default palette, default colour `i mod 10` |
| PriceChart.ProcessDatasets | src/components/graphvisualizer.tsx:69-94 | there is one processed dataset per input, with the same name, its index's colour, and as points the processed points of its own data, sorted by date |
| PriceChart.CanDraw | src/components/graphvisualizer.tsx:190 | `canDraw` holds iff some dataset has at least two points |
| PriceChart.BisectDate | src/components/graphvisualizer.tsx:152-164 | the loop terminates; a non-empty input gives an index in `[0, max(0, n-2)]` and that point; for date-sorted input, points after the first up to the index are at or before the date, and points after it except the last are later |
| TopHolders.Substring | src/components/topholder.tsx:138 | with both ends clamped to the string, the result is as long as the distance between them, and its characters are those of the string from the smaller end on |
| TopHolders.WalletLabel | src/components/topholder.tsx:138 | the label is the first six characters, `...`, then the last four (13 characters for a wallet of 10 or more) |
| TopHolders.Truncate | src/components/topholder.tsx:140 | a name of at most 16 characters is returned unchanged; a longer one becomes its first 16 characters plus `...`; the result never exceeds 19 |
| TopHolders.DisplayName | src/components/topholder.tsx:133-141 | a display name is at most 19 characters long |
| TopHolders.DisplayNameSource | src/components/topholder.tsx:134-138 | the display name comes from the public username if it is shown and non-empty, else the non-empty pseudonym, else the wallet label; it is never empty |
| TopHolders.VisibleHolders | src/components/topholder.tsx:152 | expanded shows all holders; collapsed shows the first `min(10, n)` holders in order |
| TopHolders.HasMoreIffHidden | src/components/topholder.tsx:153 | `hasMore` holds iff the visible list hides some holders, i.e. more than 10 holders and collapsed |
| TopHolders.SplitOn | src/components/topholder.tsx:66-67 | the yes and no lists are always the two different entries `info[0]` and `info[1]` |
| TopHolders.SplitAsWritten | src/components/topholder.tsx:64-68 | a missing or empty response fails; otherwise the lists are split |
| TopHolders.AsWrittenIgnoresYesToken | src/components/topholder.tsx:66-67 | as written, whenever the first token is not a condition id, the yes list is always `info[1]` |
| TopHolders.AsWrittenSwapsYesAndNo | src/components/topholder.tsx:66-67 | a yes token listed first is shown under "no" |
| TopHolders.SplitByCondition | src/components/topholder.tsx:52-67 | the corrected split fails exactly when the response is missing or empty |
| TopHolders.SplitByConditionFindsYes | src/components/topholder.tsx:52-67 | with the lookup by condition id, the yes list is the one holding the market's yes token and the no list is the other |
| SearchBar.ArrowDownIndex | src/components/SearchBar.tsx:83 | ArrowDown adds one exactly when the index is below `results.length - 1`, and keeps an index in `[-1, length-1]` in that range |
| SearchBar.ArrowUpIndex | src/components/SearchBar.tsx:87 | ArrowUp subtracts one exactly when the index is positive; 0 and -1 stay put |
| SearchBar.ArrowsStayInRange | src/components/SearchBar.tsx:81-88 | from an index in `[-1, length-1]`, any sequence of arrow presses stays in that range |
| SearchBar.SearchBox.constructor | src/components/SearchBar.tsx:24-28 | the box starts with an empty query, no results and index -1 |
| SearchBar.SearchBox.HandleChange | src/components/SearchBar.tsx:58-62 | typing sets the query and resets the index to -1 |
| SearchBar.SearchBox.HandleClear | src/components/SearchBar.tsx:71-75 | clearing empties the query and the results and resets the index to -1 |
| SearchBar.SearchBox.HandleSelect | src/components/SearchBar.tsx:64-69 | selecting shows the title, closes the list and reports the slug, and keeps the index |
| SearchBar.SearchBox.HandleKeyDown | src/components/SearchBar.tsx:77-101 | any key does nothing without results; the arrows apply their updaters; Enter selects only for an index in `[0, length)`; Escape clears the results; other keys change nothing |
| SearchBar.SearchBox.RunSearch | src/components/SearchBar.tsx:32-52 | a query shorter than 2 clears the results and sends no request; otherwise the results are the response's events, or none on failure |
| EventDisplayer.OpenEvents | src/components/EventDisplayer.tsx:11 | every open event is a market that is not closed and has outcome prices; each such market occurs in the result exactly as often as in the input, and no other market occurs |
| EventDisplayer.OpenEventsInOrder | src/components/EventDisplayer.tsx:11 | open events keep the original order |
| EventDisplayer.ItemsPerRow | src/components/EventDisplayer.tsx:25-31 | tiles per row is always 2, 3, 4 or 5 |
| EventDisplayer.ItemsPerRowMonotone | src/components/EventDisplayer.tsx:27-30 | a wider window never gives fewer tiles per row |
| EventDisplayer.ItemsPerRowBreakpoints | src/components/EventDisplayer.tsx:27-30 | the steps begin exactly at widths 640, 768 and 1024 |
| EventDisplayer.DisplayedEvents | src/components/EventDisplayer.tsx:41 | expanded shows all open markets; collapsed shows the first `min(itemsPerRow, n)` of them in order |
| EventDisplayer.HasMoreIffCollapsedHides | src/components/EventDisplayer.tsx:42 | `hasMoreEvents` holds iff the collapsed card hides some open market |
| EventDisplayer.TotalVolumeSplit | src/components/EventDisplayer.tsx:14-21 | the volume sums over two runs of markets add up, a NaN volume counting as 0 |
| EventDisplayer.TotalVolumeNonNegative | src/components/EventDisplayer.tsx:14-21 | with no negative volumes, the total is non-negative |
| EventDisplayer.TotalVolumeBoundsEach | src/components/EventDisplayer.tsx:14-21 | with no negative volumes, the total is at least each market's volume |
| FormatNumber.FormatDecimal | src/helpTS/formatNumber.ts:1-12 | every label is non-empty text ending with the symbol |
| FormatNumber.FormatDecimalCases | src/helpTS/formatNumber.ts:1-12 | (0, 0.01) gives `0.1`+symbol; (0.99, 1) gives `>99`+symbol; at least 1 gives `99`+symbol; otherwise the rounded percentage plus the symbol; the symbol defaults to `%` |
| FormatNumber.RoundedPercentInRange | src/helpTS/formatNumber.ts:11 | for values in `[0.01, 0.99]`, the rounded percentage lies in `[1, 99]` |
| FormatNumber.RoundedLabelsDistinct | src/helpTS/formatNumber.ts:11 | for values in `[0.01, 0.99]`, different rounded percentages give different labels |
| FormatNumber.VolumeTierOf | src/helpTS/formatNumber.ts:14-25 | NaN gives `$0`; otherwise exactly one tier: at least 1,000,000 is M, at least 1,000 is K, else plain dollars |
| FormatNumber.VolumeTierScales | src/helpTS/formatNumber.ts:18-24 | the amount shown times the tier's unit is the volume; an M amount is at least 1 and a K amount is in `[1, 1000)` |
| DecimalText.NatToDigits | src/helpTS/formatNumber.ts:11 | a rendered natural number is a non-empty run of digits with no leading zero |
| DecimalText.DigitsRoundTrip | src/helpTS/formatNumber.ts:11 | reading a rendered natural number back gives the number |
| DecimalText.IntToString | src/helpTS/formatNumber.ts:11 | the text is non-empty; for `n >= 0` it is all digits and reads back as `n`; for `n < 0` it is `-` followed by digits that read back as `-n` |
| DecimalText.IntToStringInjective | src/helpTS/formatNumber.ts:11 | two integers with the same text are equal |
| Gradient.Hue1 | src/helpTS/generateGradient.ts:6 | the first hue lies in `[0, 360)` |
| Gradient.Hue2 | src/helpTS/generateGradient.ts:7 | the second hue lies in `[0, 360)` |
| Gradient.HuesApart | src/helpTS/generateGradient.ts:6-7 | the hues differ and are 120 degrees apart modulo 360 |
| Gradient.GenerateGradient | src/helpTS/generateGradient.ts:1-9 | the gradient text starts with `linear-gradient(135deg, hsl(` and ends with `, 70%, 50%))` |
| Gradient.GradientOfFirstChar | src/helpTS/generateGradient.ts:3 | the gradient depends only on the name's first character |
| Gradient.GradientTemplate | src/helpTS/generateGradient.ts:6-9 | the gradient text is exactly `linear-gradient(135deg, hsl(` + hue1 + `, 70%, 50%), hsl(` + hue2 + `, 70%, 50%))`; each hue's digits sit at a fixed place and read back as that hue |

## Left out

- The WebSocket connection, the subscription sent on open and the `JSON.parse` of frames are I/O (src/components/orderBook.tsx:41-51). `OnMessage` takes an already decoded list of events. The exception paths are not modelled either: a null element or a missing `event_type` throws inside the `for...of` loop and the rest of that message is lost (src/components/orderBook.tsx:52-53), and a missing `side` throws at `.toUpperCase()` (src/components/orderBook.tsx:80).
- Holder: `proxyWallet` is taken as present; a null wallet throws at `.substring` (src/components/topholder.tsx:138), which is not modelled.
- The list of tracked markets, which needs a `JSON.parse` of `clobTokenIds`, is display wiring (src/components/orderBook.tsx:30-38).
- `parseFloat` of a change's price and size is not modelled: entries carry decoded numbers, so a NaN size is not modelled.
- Floating point is not modelled. Prices, sizes and dates are exact, and `===` on rounded prices is equality of integer ticks.
- `toUpperCase`, `substring`, `length` and `charCodeAt` are modelled on ASCII text. Case mapping outside ASCII and UTF-16 surrogate pairs are not modelled.
- The in-place write `target[existingIndex].size = size` also changes the level object shared with the previous state. Levels here are values, so that aliasing is not modelled.
- React state is not modelled as such. `setOrderBooks` functional updaters, `useEffect`, `useMemo`, JSX, CSS classes and timers become explicit class fields and sequential method calls. So batch atomicity holds by construction and is not stated separately.
- `formatCents`, `formatDollar`, `formatShares`, `toLocaleString` and `toFixed` produce text (src/components/orderBook.tsx:15-24, src/helpTS/formatNumber.ts:16-24). Only the chosen tier and the amount are modelled.
- Sorting.SortBy: its contract states order and permutation but not the stability of `Array.prototype.sort`. So the relative order of equal-price levels, and of chart points with equal dates, is not stated.
- Chart scales, axes, `extent`, `merge`, tooltip geometry, `localPoint` and `timeScale.invert` are library calls and float geometry (src/components/graphvisualizer.tsx:101-151, 166-291). `BisectDate` takes the target date as a parameter.
- The chart's second, identical copy of the point processing is modelled once (src/components/graphvisualizer.tsx:371-391).
- The price summary's rounded last price is display text and is not modelled (src/components/graphvisualizer.tsx:319, 405).
- Logging is not modelled. That covers the warning for an unknown event (src/components/orderBook.tsx:112), the warning for an invalid point (src/components/graphvisualizer.tsx:79) and the search error log (src/components/SearchBar.tsx:47).
- Dates outside JavaScript's `Date` range, which would also be dropped as invalid, are not modelled.
- Topholder fetching, the condition-id maps built with `JSON.parse`, and `handleMarketChange` are I/O and selection state (src/components/topholder.tsx:39-62, 79-83). The holder response is a parameter.
- The search box's debounce, `isLoading`, focus and blur, and `scrollIntoView` are timers and browser state. So are the per-result volume sums and the box's own `formatVolume` display text (src/components/SearchBar.tsx:54-55, 103-122, 166-167).
- The event card's `window` resize listener and the `JSON.parse` of outcome prices are browser I/O. `ItemsPerRow` takes the width as a parameter.

## Findings

| source | as written | input that shows it | evidently intended | confidence | as-written member | corrected member |
|---|---|---|---|---|---|---|
| src/components/topholder.tsx:66-67 | `conditionToYes` maps condition ids to yes-token ids, but it is looked up with `info[0].token`, so the lookup finds nothing for real token ids and the yes list is always `info[1]` | `conditionToYes = {"0xc1": "111"}`, `info = [{token: "111"}, {token: "222"}]`: token "111" is the yes token, but its holders are shown under "No" | compare `info[0].token` with `conditionToYes.get(conditionId)` for the market being shown | medium, not executed | TopHolders.AsWrittenSwapsYesAndNo | TopHolders.SplitByConditionFindsYes |

=== FILE: book_projection.dfy ===
/**
 * The read-only view of one book: bids sorted by descending price, asks by
 * ascending price, paired row by row up to the panel's load size. Each
 * filled cell shows the level and its own `size * price` total (not a
 * cumulative depth).
 */
module BookProjection {
  import opened Wrappers
  import opened OrderBookTypes
  import opened Sorting
  import opened Sequences

  /** One side of a display row: a dash, or a level and its total. */
  datatype Cell = Empty | Filled(price: real, size: real, total: real)

  datatype Row = Row(bid: Cell, ask: Cell)

  function NegPrice(l: Level): real { -l.price }

  function Price(l: Level): real { l.price }

  /** `[...book.bids].sort((a, b) => b.price - a.price)`. */
  function SortedBids(bids: seq<Level>): (r: seq<Level>)
    ensures forall i, j :: 0 <= i < j < |r| ==> r[i].price >= r[j].price
    ensures |r| == |bids| && multiset(r) == multiset(bids)
  {
    var r := SortBy(bids, NegPrice);
    assert forall i, j :: 0 <= i < j < |r| ==> NegPrice(r[i]) <= NegPrice(r[j]);
    r
  }

  /** `[...book.asks].sort((a, b) => a.price - b.price)`. */
  function SortedAsks(asks: seq<Level>): (r: seq<Level>)
    ensures forall i, j :: 0 <= i < j < |r| ==> r[i].price <= r[j].price
    ensures |r| == |asks| && multiset(r) == multiset(asks)
  {
    var r := SortBy(asks, Price);
    assert forall i, j :: 0 <= i < j < |r| ==> Price(r[i]) <= Price(r[j]);
    r
  }

  /** The total a cell shows for one level: its own `size * price`, not a cumulative depth. */
  function Total(l: Level): real {
    l.size * l.price
  }

  /** The cell for rank `i` of a sorted side: empty past its end. */
  function CellAt(side: seq<Level>, i: nat): (c: Cell)
    ensures c.Empty? <==> i >= |side|
    ensures c.Filled? ==> Level(c.price, c.size) == side[i] && c.total == Total(side[i])
  {
    if i < |side| then Filled(side[i].price, side[i].size, Total(side[i])) else Empty
  }

  /**
   * The rows shown for one asset: none while its book has not arrived,
   * otherwise `min(max(|bids|, |asks|), loadSize)` rows, row `i` pairing
   * the `i`-th best bid with the `i`-th best ask.
   */
  function BookRows(book: Option<MarketOrderBook>, loadSize: nat): (rows: seq<Row>)
    ensures book.None? ==> rows == []
    ensures book.Some? ==> |rows| == Min(Max(|book.value.bids|, |book.value.asks|), loadSize)
    ensures book.Some? ==> forall i :: 0 <= i < |rows| ==>
      rows[i] == Row(CellAt(SortedBids(book.value.bids), i), CellAt(SortedAsks(book.value.asks), i))
  {
    match book
    case None => []
    case Some(b) =>
      var sortedBids := SortedBids(b.bids);
      var sortedAsks := SortedAsks(b.asks);
      var displayLength := Max(|sortedBids|, |sortedAsks|);
      seq(Min(displayLength, loadSize), i requires 0 <= i => Row(CellAt(sortedBids, i), CellAt(sortedAsks, i)))
  }

  /** A filled cell of a side sorted from `levels` shows one of `levels` and its own total. */
  lemma FilledCellIsLevel(sorted: seq<Level>, levels: seq<Level>, i: nat)
    requires multiset(sorted) == multiset(levels)
    ensures var c := CellAt(sorted, i);
            c.Filled? ==> Level(c.price, c.size) in levels && c.total == Total(Level(c.price, c.size))
  {
    if i < |sorted| {
      assert sorted[i] in multiset(sorted);
    }
  }

  /**
   * What row `i` shows: its bid cell is filled exactly when the book has
   * more than `i` bids, and likewise for asks; a filled cell shows a level
   * of its side of the book with that level's own `size * price` total.
   */
  lemma RowShowsBookLevels(book: MarketOrderBook, loadSize: nat, i: nat)
    requires i < |BookRows(Some(book), loadSize)|
    ensures var row := BookRows(Some(book), loadSize)[i];
            && (row.bid.Filled? <==> i < |book.bids|)
            && (row.ask.Filled? <==> i < |book.asks|)
            && (row.bid.Filled? ==> Level(row.bid.price, row.bid.size) in book.bids
                                    && row.bid.total == Total(Level(row.bid.price, row.bid.size)))
            && (row.ask.Filled? ==> Level(row.ask.price, row.ask.size) in book.asks
                                    && row.ask.total == Total(Level(row.ask.price, row.ask.size)))
  {
    FilledCellIsLevel(SortedBids(book.bids), book.bids, i);
    FilledCellIsLevel(SortedAsks(book.asks), book.asks, i);
  }

  /**
   * Every row has at least one filled side, filled bid cells run in
   * descending price and filled ask cells in ascending price, with no gaps.
   */
  lemma RowsAreRanked(book: MarketOrderBook, loadSize: nat)
    ensures var rows := BookRows(Some(book), loadSize);
            && (forall i :: 0 <= i < |rows| ==> rows[i].bid.Filled? || rows[i].ask.Filled?)
            && (forall i, j :: 0 <= i < j < |rows| && rows[j].bid.Filled? ==>
                  rows[i].bid.Filled? && rows[i].bid.price >= rows[j].bid.price)
            && (forall i, j :: 0 <= i < j < |rows| && rows[j].ask.Filled? ==>
                  rows[i].ask.Filled? && rows[i].ask.price <= rows[j].ask.price)
  {
    var rows := BookRows(Some(book), loadSize);
    var sb := SortedBids(book.bids);
    var sa := SortedAsks(book.asks);
  }

  /** Scenario: a one-bid, one-ask snapshot projects to exactly one row holding those two levels. */
  lemma SingleLevelBook(book: MarketOrderBook)
    requires book.bids == [Level(0.32, 100.0)] && book.asks == [Level(0.35, 50.0)]
    ensures BookRows(Some(book), 10) == [Row(Filled(0.32, 100.0, 32.0), Filled(0.35, 50.0, 17.5))]
  {
    var sb := SortedBids(book.bids);
    assert sb[0] in multiset(book.bids);
    var sa := SortedAsks(book.asks);
    assert sa[0] in multiset(book.asks);
  }
}

=== FILE: decimal_text.dfy ===
/**
 * Decimal text of an integer, as a JavaScript template literal renders an
 * integral number: optional `-`, then digits with no leading zeros.
 */
module DecimalText {

  predicate IsDigit(c: char) {
    '0' <= c <= '9'
  }

  /** The decimal digits of `n`, most significant first; "0" for zero. */
  function NatToDigits(n: nat): (r: string)
    ensures |r| > 0
    ensures forall i :: 0 <= i < |r| ==> IsDigit(r[i])
    ensures |r| > 1 ==> r[0] != '0'
  {
    if n < 10 then
      [(n + '0' as int) as char]
    else
      NatToDigits(n / 10) + [(n % 10 + '0' as int) as char]
  }

  /** The value of a string of decimal digits. */
  function DigitsToNat(s: string): nat
    requires forall i :: 0 <= i < |s| ==> IsDigit(s[i])
  {
    if s == [] then 0
    else
      assert IsDigit(s[|s| - 1]);
      DigitsToNat(s[..|s| - 1]) * 10 + (s[|s| - 1] as int - '0' as int)
  }

  /** Reading the digits back gives the number. */
  lemma {:induction false} DigitsRoundTrip(n: nat)
    ensures DigitsToNat(NatToDigits(n)) == n
  {
    if n >= 10 {
      var d := NatToDigits(n);
      var prefix := NatToDigits(n / 10);
      assert d[..|d| - 1] == prefix;
      DigitsRoundTrip(n / 10);
    }
  }

  /**
   * The text of an integer: its digits read back give the integer, behind
   * a `-` when it is negative.
   */
  function IntToString(n: int): (r: string)
    ensures |r| > 0
    ensures n >= 0 ==> (forall i :: 0 <= i < |r| ==> IsDigit(r[i])) && DigitsToNat(r) == n
    ensures n < 0 ==> r[0] == '-' && (forall i :: 1 <= i < |r| ==> IsDigit(r[i])) && DigitsToNat(r[1..]) == -n
  {
    if n >= 0 then
      DigitsRoundTrip(n);
      NatToDigits(n)
    else
      DigitsRoundTrip(-n);
      var d := NatToDigits(-n);
      assert ("-" + d)[1..] == d;
      "-" + d
  }

  /** The text of an integer, read back, is the integer. */
  lemma IntToStringInjective(m: int, n: int)
    requires IntToString(m) == IntToString(n)
    ensures m == n
  {
  }
}

=== FILE: event_displayer.dfy ===
/**
 * The event card: its open markets, the number of market tiles per row
 * for the window width, the collapsed or expanded tile list, and the
 * card's total and 24-hour volume.
 */
module EventDisplayer {
  import opened Wrappers
  import opened Sequences

  /** The fields of a market the card reads; a volume is `None` when `parseFloat` gives NaN. */
  datatype Market = Market(
    id: string,
    closed: bool,
    outcomePrices: Option<string>,
    volume: Option<real>,
    volume24hr: Option<real>)

  predicate IsOpen(m: Market) {
    !m.closed && m.outcomePrices.Some?
  }

  /** `openEvents`: the markets that are not closed and have outcome prices, in original order. */
  function OpenEvents(markets: seq<Market>): (r: seq<Market>)
    ensures |r| <= |markets|
    ensures forall i :: 0 <= i < |r| ==> IsOpen(r[i]) && r[i] in markets
    ensures forall i :: 0 <= i < |markets| && IsOpen(markets[i]) ==> markets[i] in r
    ensures forall m :: multiset(r)[m] == if IsOpen(m) then multiset(markets)[m] else 0
  {
    if markets == [] then []
    else
      var rest := OpenEvents(markets[1..]);
      assert forall i :: 1 <= i < |markets| ==> markets[i] == markets[1..][i - 1];
      assert markets == [markets[0]] + markets[1..];
      assert multiset(markets) == multiset{markets[0]} + multiset(markets[1..]);
      if IsOpen(markets[0]) then [markets[0]] + rest else rest
  }

  /** The open markets keep their relative order. */
  lemma {:induction false} OpenEventsInOrder(markets: seq<Market>)
    ensures IsSubsequence(OpenEvents(markets), markets)
  {
    if markets != [] {
      OpenEventsInOrder(markets[1..]);
    }
  }

  /** `updateItemsPerRow`: tiles per row by window width, with breakpoints at 640, 768 and 1024. */
  function ItemsPerRow(width: int): (r: nat)
    ensures r in {2, 3, 4, 5}
  {
    if width < 640 then 2
    else if width < 768 then 3
    else if width < 1024 then 4
    else 5
  }

  /** A wider window never shows fewer tiles per row. */
  lemma ItemsPerRowMonotone(w1: int, w2: int)
    requires w1 <= w2
    ensures ItemsPerRow(w1) <= ItemsPerRow(w2)
  {
  }

  /** Each breakpoint is the first width of its step. */
  lemma ItemsPerRowBreakpoints()
    ensures ItemsPerRow(639) == 2 && ItemsPerRow(640) == 3
    ensures ItemsPerRow(767) == 3 && ItemsPerRow(768) == 4
    ensures ItemsPerRow(1023) == 4 && ItemsPerRow(1024) == 5
  {
  }

  /** `displayedEvents`: all open markets when expanded, else the first `itemsPerRow` of them. */
  function DisplayedEvents(open: seq<Market>, isExpanded: bool, itemsPerRow: nat): (r: seq<Market>)
    ensures isExpanded ==> r == open
    ensures !isExpanded ==> |r| == Min(itemsPerRow, |open|)
    ensures r == open[..|r|]
  {
    if isExpanded then open else open[..Min(itemsPerRow, |open|)]
  }

  /** `hasMoreEvents`: more open markets than fit in one row. */
  predicate HasMoreEvents(open: seq<Market>, itemsPerRow: nat) {
    |open| > itemsPerRow
  }

  /** The expand chevron is offered exactly when the collapsed card hides some open market. */
  lemma HasMoreIffCollapsedHides(open: seq<Market>, itemsPerRow: nat)
    ensures HasMoreEvents(open, itemsPerRow) <==> |DisplayedEvents(open, false, itemsPerRow)| < |open|
  {
  }

  /** `parseFloat(v) || 0`. */
  function VolumeOrZero(v: Option<real>): real {
    v.GetOr(0.0)
  }

  /** The card's total volume: the open markets' volumes summed, a NaN counting as 0. */
  function TotalVolume(open: seq<Market>): real {
    if open == [] then 0.0
    else TotalVolume(open[..|open| - 1]) + VolumeOrZero(open[|open| - 1].volume)
  }

  /** The card's 24-hour volume, summed the same way. */
  function Volume24h(open: seq<Market>): real {
    if open == [] then 0.0
    else Volume24h(open[..|open| - 1]) + VolumeOrZero(open[|open| - 1].volume24hr)
  }

  /** Summing over two runs of markets adds their sums, so the order of reduction does not matter. */
  lemma {:induction false} TotalVolumeSplit(a: seq<Market>, b: seq<Market>)
    ensures TotalVolume(a + b) == TotalVolume(a) + TotalVolume(b)
    ensures Volume24h(a + b) == Volume24h(a) + Volume24h(b)
  {
    if b == [] {
      assert a + b == a;
    } else {
      TotalVolumeSplit(a, b[..|b| - 1]);
      assert (a + b)[..|a + b| - 1] == a + b[..|b| - 1];
    }
  }

  /** With no NaN and no negative volume, the total is at least each market's own volume. */
  lemma {:induction false} TotalVolumeBoundsEach(open: seq<Market>, i: nat)
    requires i < |open|
    requires forall j :: 0 <= j < |open| ==> VolumeOrZero(open[j].volume) >= 0.0
    ensures TotalVolume(open) >= VolumeOrZero(open[i].volume)
  {
    if i < |open| - 1 {
      TotalVolumeBoundsEach(open[..|open| - 1], i);
    } else {
      TotalVolumeNonNegative(open[..|open| - 1]);
    }
  }

  lemma {:induction false} TotalVolumeNonNegative(open: seq<Market>)
    requires forall j :: 0 <= j < |open| ==> VolumeOrZero(open[j].volume) >= 0.0
    ensures TotalVolume(open) >= 0.0
  {
    if open != [] {
      TotalVolumeNonNegative(open[..|open| - 1]);
    }
  }
}

=== FILE: format_number.dfy ===
/**
 * `formatDecimal`, the percentage label of an outcome price, and the tier
 * that `formatVolume` picks for a volume.
 */
module FormatNumber {
  import opened Wrappers
  import opened DecimalText
  import opened JsMath

  /** `formatDecimal(value, specialChar = '%')`. */
  function FormatDecimal(value: real, specialChar: string := "%"): (r: string)
    ensures |r| > |specialChar| && r[|r| - |specialChar|..] == specialChar
  {
    if value < 0.01 && value > 0.0 then "0.1" + specialChar
    else if value > 0.99 && value < 1.0 then ">99" + specialChar
    else if value >= 1.0 then "99" + specialChar
    else IntToString(Round(value * 100.0)) + specialChar
  }

  /** Each range of values gets its own label, and the default symbol is `%`. */
  lemma FormatDecimalCases(value: real, specialChar: string)
    ensures 0.0 < value < 0.01 ==> FormatDecimal(value, specialChar) == "0.1" + specialChar
    ensures 0.99 < value < 1.0 ==> FormatDecimal(value, specialChar) == ">99" + specialChar
    ensures value >= 1.0 ==> FormatDecimal(value, specialChar) == "99" + specialChar
    ensures (value <= 0.0 || 0.01 <= value <= 0.99) ==>
      FormatDecimal(value, specialChar) == IntToString(Round(value * 100.0)) + specialChar
    ensures FormatDecimal(value) == FormatDecimal(value, "%")
  {
  }

  /** In the rounded range the label is a whole percentage from 1 to 99. */
  lemma RoundedPercentInRange(value: real)
    requires 0.01 <= value <= 0.99
    ensures 1 <= Round(value * 100.0) <= 99
  {
  }

  /** Distinct rounded percentages give distinct labels. */
  lemma RoundedLabelsDistinct(a: real, b: real, specialChar: string)
    requires 0.01 <= a <= 0.99 && 0.01 <= b <= 0.99
    requires Round(a * 100.0) != Round(b * 100.0)
    ensures FormatDecimal(a, specialChar) != FormatDecimal(b, specialChar)
  {
    var sa := IntToString(Round(a * 100.0));
    var sb := IntToString(Round(b * 100.0));
    if sa == sb {
      IntToStringInjective(Round(a * 100.0), Round(b * 100.0));
    }
    if |sa| == |sb| {
      assert (sa + specialChar)[..|sa|] == sa;
      assert (sb + specialChar)[..|sb|] == sb;
    }
  }

  /** The tier of `formatVolume`: NaN shows `$0`; otherwise millions, thousands or plain dollars. */
  datatype VolumeTier = NotANumber | Millions(amount: real) | Thousands(amount: real) | Dollars(amount: real)

  function VolumeTierOf(num: Option<real>): (t: VolumeTier)
    ensures t.NotANumber? <==> num.None?
    ensures t.Millions? <==> num.Some? && num.value >= 1000000.0
    ensures t.Thousands? <==> num.Some? && 1000.0 <= num.value < 1000000.0
    ensures t.Dollars? <==> num.Some? && num.value < 1000.0
  {
    match num
    case None => NotANumber
    case Some(n) =>
      if n >= 1000000.0 then Millions(n / 1000000.0)
      else if n >= 1000.0 then Thousands(n / 1000.0)
      else Dollars(n)
  }

  /** The amount a tier shows, times its unit, is the volume. */
  lemma VolumeTierScales(n: real)
    ensures match VolumeTierOf(Some(n))
            case Millions(a) => a * 1000000.0 == n && a >= 1.0
            case Thousands(a) => a * 1000.0 == n && 1.0 <= a < 1000.0
            case Dollars(a) => a == n
            case NotANumber => false
  {
  }
}

=== FILE: generate_gradient.dfy ===
/** `generateGradient`: an avatar's two-colour gradient from the first character of a name. */
module Gradient {
  import opened DecimalText

  /** `(charCode * 137) % 360`; char codes are non-negative, so JavaScript's `%` agrees with Dafny's. */
  function Hue1(c: char): (h: int)
    ensures 0 <= h < 360
  {
    (c as int * 137) % 360
  }

  /** `(hue1 + 120) % 360`. */
  function Hue2(hue1: int): (h: int)
    requires 0 <= hue1 < 360
    ensures 0 <= h < 360
  {
    (hue1 + 120) % 360
  }

  /** The second hue is a third of the wheel on from the first, so the two always differ. */
  lemma HuesApart(c: char)
    ensures Hue2(Hue1(c)) != Hue1(c)
    ensures (Hue2(Hue1(c)) - Hue1(c)) % 360 == 120
    ensures Hue2(Hue1(c)) == if Hue1(c) < 240 then Hue1(c) + 120 else Hue1(c) - 240
  {
  }

  /** The CSS gradient of a non-empty name. */
  function GenerateGradient(name: string): (r: string)
    requires |name| > 0
    ensures var prefix := "linear-gradient(135deg, hsl(";
            var suffix := ", 70%, 50%))";
            && |r| > |prefix| + |suffix|
            && r[..|prefix|] == prefix
            && r[|r| - |suffix|..] == suffix
  {
    var hue1 := Hue1(name[0]);
    var hue2 := Hue2(hue1);
    "linear-gradient(135deg, hsl(" + IntToString(hue1) + ", 70%, 50%), hsl(" + IntToString(hue2) + ", 70%, 50%))"
  }

  /** Only the first character matters. */
  lemma GradientOfFirstChar(a: string, b: string)
    requires |a| > 0 && |b| > 0 && a[0] == b[0]
    ensures GenerateGradient(a) == GenerateGradient(b)
  {
  }

  /**
   * The whole gradient text: the fixed template with the first hue's digits
   * after `linear-gradient(135deg, hsl(` and the second hue's digits after
   * `, 70%, 50%), hsl(`; so each hue can be read back from its place.
   */
  lemma GradientTemplate(name: string)
    requires |name| > 0
    ensures var h1 := IntToString(Hue1(name[0]));
            var h2 := IntToString(Hue2(Hue1(name[0])));
            var g := GenerateGradient(name);
            && g == "linear-gradient(135deg, hsl(" + h1 + ", 70%, 50%), hsl(" + h2 + ", 70%, 50%))"
            && g[28..28 + |h1|] == h1
            && g[28 + |h1| + 17..28 + |h1| + 17 + |h2|] == h2
            && DigitsToNat(h1) == Hue1(name[0])
            && DigitsToNat(h2) == Hue2(Hue1(name[0]))
  {
  }
}

=== FILE: js_math.dfy ===
/** JavaScript's `Math` helpers the views rely on, over exact reals. */
module JsMath {

  /** `Math.round`: the nearest integer, halves rounded up. */
  function Round(x: real): int {
    (x + 0.5).Floor
  }
}

=== FILE: order_book.dfy ===
/**
 * The registry of live books, one per asset id, and the stream message
 * handler that maintains it: a snapshot replaces an asset's book
 * wholesale, a price-change batch edits an existing book level by level
 * and then stamps it with the batch's timestamp and hash, an unknown
 * event or a batch for an asset with no book changes nothing.
 */
module OrderBook {
  import opened Wrappers
  import opened OrderBookTypes
  import opened PriceLevels

  type Registry = map<string, MarketOrderBook>

  /** One batch entry applied to the pair of sides: `BUY` edits the bids, any other side the asks. */
  function ApplyChangeToSides(bids: seq<Level>, asks: seq<Level>, c: PriceChangeEntry): (seq<Level>, seq<Level>)
  {
    if IsBuy(c.side) then (ApplyLevelChange(bids, c.price, c.size), asks)
    else (bids, ApplyLevelChange(asks, c.price, c.size))
  }

  /** A batch's entries applied to the pair of sides in array order. */
  function ApplyChanges(bids: seq<Level>, asks: seq<Level>, cs: seq<PriceChangeEntry>): (r: (seq<Level>, seq<Level>))
    ensures |r.0| + |r.1| <= |bids| + |asks| + |cs|
    ensures |bids| + |asks| <= |r.0| + |r.1| + |cs|
  {
    if cs == [] then (bids, asks)
    else
      var (b, a) := ApplyChanges(bids, asks, cs[..|cs| - 1]);
      ApplyChangeToSides(b, a, cs[|cs| - 1])
  }

  /**
   * Reference semantics of a batch at one tick of one side: the size of the
   * last entry of `cs` for that side and tick (none when that size is 0),
   * or `prior` when no entry touches it.
   */
  function LastWrite(cs: seq<PriceChangeEntry>, k: int, buy: bool, prior: Option<real>): Option<real>
  {
    if cs == [] then prior
    else
      var c := cs[|cs| - 1];
      if IsBuy(c.side) == buy && Key(c.price) == k then
        (if c.size == 0.0 then None else Some(c.size))
      else
        LastWrite(cs[..|cs| - 1], k, buy, prior)
  }

  /** An entry edits only the side its upper-cased `side` names; the other side is untouched. */
  lemma ChangeEditsOneSide(bids: seq<Level>, asks: seq<Level>, c: PriceChangeEntry)
    ensures var (b, a) := ApplyChangeToSides(bids, asks, c);
            && (IsBuy(c.side) ==> a == asks && b == ApplyLevelChange(bids, c.price, c.size))
            && (!IsBuy(c.side) ==> b == bids && a == ApplyLevelChange(asks, c.price, c.size))
  {
  }

  /** A batch whose entries all name the other side leaves a side as it was. */
  lemma {:induction false} BatchLeavesOtherSide(bids: seq<Level>, asks: seq<Level>, cs: seq<PriceChangeEntry>)
    ensures (forall i :: 0 <= i < |cs| ==> !IsBuy(cs[i].side)) ==> ApplyChanges(bids, asks, cs).0 == bids
    ensures (forall i :: 0 <= i < |cs| ==> IsBuy(cs[i].side)) ==> ApplyChanges(bids, asks, cs).1 == asks
  {
    if cs != [] {
      BatchLeavesOtherSide(bids, asks, cs[..|cs| - 1]);
    }
  }

  /** A batch applied to sides with unique ticks leaves both sides with unique ticks. */
  lemma {:induction false} BatchKeepsUnique(bids: seq<Level>, asks: seq<Level>, cs: seq<PriceChangeEntry>)
    requires UniqueKeys(bids) && UniqueKeys(asks)
    ensures UniqueKeys(ApplyChanges(bids, asks, cs).0) && UniqueKeys(ApplyChanges(bids, asks, cs).1)
  {
    if cs != [] {
      var c := cs[|cs| - 1];
      BatchKeepsUnique(bids, asks, cs[..|cs| - 1]);
      var (b, a) := ApplyChanges(bids, asks, cs[..|cs| - 1]);
      if IsBuy(c.side) {
        ApplyLevelChangeKeepsUnique(b, c.price, c.size);
      } else {
        ApplyLevelChangeKeepsUnique(a, c.price, c.size);
      }
    }
  }

  /**
   * Last write wins: starting from sides with unique ticks, a batch keeps
   * ticks unique, and afterwards the size at every tick of each side is the
   * one its last entry for that tick wrote (no level at all when that entry's
   * size was 0), or the size it had before when no entry touched it.
   */
  lemma {:induction false} BatchLastWriteWins(bids: seq<Level>, asks: seq<Level>, cs: seq<PriceChangeEntry>, k: int)
    requires UniqueKeys(bids) && UniqueKeys(asks)
    ensures var (b, a) := ApplyChanges(bids, asks, cs);
            && UniqueKeys(b) && UniqueKeys(a)
            && SizeAt(b, k) == LastWrite(cs, k, true, SizeAt(bids, k))
            && SizeAt(a, k) == LastWrite(cs, k, false, SizeAt(asks, k))
  {
    BatchKeepsUnique(bids, asks, cs);
    if cs != [] {
      var c := cs[|cs| - 1];
      var init := cs[..|cs| - 1];
      BatchLastWriteWins(bids, asks, init, k);
      var (b, a) := ApplyChanges(bids, asks, init);
      BatchKeepsUnique(bids, asks, init);
      if IsBuy(c.side) {
        SizeAtAfterChange(b, c.price, c.size, k);
        assert ApplyChanges(bids, asks, cs) == (ApplyLevelChange(b, c.price, c.size), a);
      } else {
        SizeAtAfterChange(a, c.price, c.size, k);
        assert ApplyChanges(bids, asks, cs) == (b, ApplyLevelChange(a, c.price, c.size));
      }
    }
  }

  /** When a batch's last entry has size 0, its side has no level at that entry's tick. */
  lemma LastZeroLeavesNoLevel(bids: seq<Level>, asks: seq<Level>, cs: seq<PriceChangeEntry>)
    requires UniqueKeys(bids) && UniqueKeys(asks)
    requires |cs| > 0 && cs[|cs| - 1].size == 0.0
    ensures var c := cs[|cs| - 1];
            var (b, a) := ApplyChanges(bids, asks, cs);
            var side := if IsBuy(c.side) then b else a;
            forall j :: 0 <= j < |side| ==> Key(side[j].price) != Key(c.price)
  {
    var c := cs[|cs| - 1];
    BatchLastWriteWins(bids, asks, cs, Key(c.price));
  }

  /** Scenario: a zero-size BUY at the only bid's price empties the bids. */
  lemma ZeroSizeEmptiesSingleBid(asks: seq<Level>)
    ensures ApplyChanges([Level(0.32, 100.0)], asks, [PriceChangeEntry(0.32, 0.0, "BUY")]) == ([], asks)
  {
    SideSpellings();
    var cs := [PriceChangeEntry(0.32, 0.0, "BUY")];
    assert cs[..0] == [];
  }

  /** Scenario: two SELL entries at 0.40 in one batch, sizes 10 then 20, leave size 20 there. */
  lemma SameBatchLastWriteWins(bids: seq<Level>, asks: seq<Level>)
    requires UniqueKeys(bids) && UniqueKeys(asks)
    ensures var cs := [PriceChangeEntry(0.40, 10.0, "SELL"), PriceChangeEntry(0.40, 20.0, "SELL")];
            SizeAt(ApplyChanges(bids, asks, cs).1, Key(0.40)) == Some(20.0)
  {
    SideSpellings();
    var cs := [PriceChangeEntry(0.40, 10.0, "SELL"), PriceChangeEntry(0.40, 20.0, "SELL")];
    BatchLastWriteWins(bids, asks, cs, Key(0.40));
  }

  /** The book a snapshot event stores: the wire bids and asks as given. */
  function SnapshotBook(e: StreamEvent): (b: MarketOrderBook)
    requires IsFullBookEvent(e)
  {
    MarketOrderBook(e.market, e.assetId, e.timestamp, e.hash, e.bids.value, e.asks.value)
  }

  /** An existing book after a batch: new sides, the batch's timestamp and hash, everything else kept. */
  function ApplyBatch(book: MarketOrderBook, timestamp: string, hash: string, cs: seq<PriceChangeEntry>): MarketOrderBook
  {
    var (b, a) := ApplyChanges(book.bids, book.asks, cs);
    book.(bids := b, asks := a, timestamp := timestamp, hash := hash)
  }

  /** One classified event applied to the registry. */
  function ApplyEvent(books: Registry, e: StreamEvent): (r: Registry)
    ensures books.Keys <= r.Keys
    ensures forall id :: id in r && id !in books ==> id == e.assetId && IsFullBookEvent(e)
  {
    match Classify(e)
    case FullBook => books[e.assetId := SnapshotBook(e)]
    case PriceChange =>
      if e.assetId in books then
        books[e.assetId := ApplyBatch(books[e.assetId], e.timestamp, e.hash, e.changes.value)]
      else books
    case Unknown => books
  }

  /** The events of one message applied in array order. */
  function ApplyEvents(books: Registry, es: seq<StreamEvent>): (r: Registry)
    ensures forall id :: id in r && id !in books ==>
      exists i :: 0 <= i < |es| && es[i].assetId == id && IsFullBookEvent(es[i])
  {
    if es == [] then books
    else
      var init := es[..|es| - 1];
      var prior := ApplyEvents(books, init);
      assert forall i :: 0 <= i < |init| ==> init[i] == es[i];
      ApplyEvent(prior, es[|es| - 1])
  }

  /** Some event of the list is a snapshot. */
  predicate HasSnapshot(es: seq<StreamEvent>) {
    exists i :: 0 <= i < |es| && IsFullBookEvent(es[i])
  }

  /** Every book is stored under its own asset id. */
  ghost predicate KeyedByAsset(books: Registry) {
    forall id :: id in books ==> books[id].assetId == id
  }

  /** An unknown event leaves the whole registry unchanged. */
  lemma UnknownEventIgnored(books: Registry, e: StreamEvent)
    requires !IsFullBookEvent(e) && !IsPriceChangeEvent(e)
    ensures ApplyEvent(books, e) == books
  {
  }

  /** A batch for an asset with no book is dropped: the registry is unchanged and gains no entry. */
  lemma OrphanBatchDropped(books: Registry, e: StreamEvent)
    requires IsPriceChangeEvent(e) && e.assetId !in books
    ensures ApplyEvent(books, e) == books
  {
    GuardsExclusive(e);
  }

  /** A snapshot replaces (or creates) the book of its asset with the wire levels and leaves every other book alone. */
  lemma SnapshotReplacesBook(books: Registry, e: StreamEvent)
    requires IsFullBookEvent(e)
    ensures var r := ApplyEvent(books, e);
            && r.Keys == books.Keys + {e.assetId}
            && r[e.assetId] == MarketOrderBook(e.market, e.assetId, e.timestamp, e.hash, e.bids.value, e.asks.value)
            && (forall id :: id in books && id != e.assetId ==> r[id] == books[id])
  {
  }

  /**
   * A batch for a known asset rewrites only that asset's book: its sides
   * are the batch applied in order, its timestamp and hash are the event's,
   * its market and asset id are kept.
   */
  lemma BatchStampsBook(books: Registry, e: StreamEvent)
    requires IsPriceChangeEvent(e) && e.assetId in books
    ensures var r := ApplyEvent(books, e);
            var old_ := books[e.assetId];
            && r.Keys == books.Keys
            && r[e.assetId].timestamp == e.timestamp && r[e.assetId].hash == e.hash
            && r[e.assetId].market == old_.market && r[e.assetId].assetId == old_.assetId
            && (r[e.assetId].bids, r[e.assetId].asks) == ApplyChanges(old_.bids, old_.asks, e.changes.value)
            && (forall id :: id in books && id != e.assetId ==> r[id] == books[id])
  {
    GuardsExclusive(e);
  }

  /** Every event keeps each book stored under its own asset id. */
  lemma {:induction false} ApplyEventsKeyedByAsset(books: Registry, es: seq<StreamEvent>)
    requires KeyedByAsset(books)
    ensures KeyedByAsset(ApplyEvents(books, es))
  {
    if es != [] {
      ApplyEventsKeyedByAsset(books, es[..|es| - 1]);
    }
  }

  /** Events only ever add books: an asset with a book keeps one. */
  lemma {:induction false} ApplyEventsKeepsAssets(books: Registry, es: seq<StreamEvent>)
    ensures books.Keys <= ApplyEvents(books, es).Keys
  {
    if es != [] {
      ApplyEventsKeepsAssets(books, es[..|es| - 1]);
    }
  }

  /**
   * The state of the order-book component: the registry, whether any
   * snapshot has arrived (`loaded`) and the number of rows shown per book.
   */
  class OrderBookPanel {
    var orderBooks: Registry
    var loaded: bool
    var loadSize: int

    ghost predicate Valid()
      reads this
    {
      && (loadSize == 10 || loadSize == 20)
      && KeyedByAsset(orderBooks)
      && (!loaded ==> orderBooks == map[])
    }

    constructor ()
      ensures Valid()
      ensures orderBooks == map[] && !loaded && loadSize == 10
    {
      orderBooks := map[];
      loaded := false;
      loadSize := 10;
    }

    /** The snapshot handler: store the wire book under its asset id and mark the panel loaded. */
    method ApplySnapshot(e: StreamEvent)
      requires Valid() && IsFullBookEvent(e)
      modifies this
      ensures Valid()
      ensures orderBooks == old(orderBooks)[e.assetId := SnapshotBook(e)]
      ensures loaded && loadSize == old(loadSize)
    {
      var newOrderBook := MarketOrderBook(e.market, e.assetId, e.timestamp, e.hash, e.bids.value, e.asks.value);
      orderBooks := orderBooks[e.assetId := newOrderBook];
      loaded := true;
    }

    /**
     * The price-change handler: drop the batch when the asset has no book;
     * otherwise copy both sides, apply the entries one by one and store the
     * book with the batch's timestamp and hash.
     */
    method ApplyPriceChange(e: StreamEvent)
      requires Valid() && IsPriceChangeEvent(e)
      modifies this
      ensures Valid()
      ensures orderBooks == ApplyEvent(old(orderBooks), e)
      ensures loaded == old(loaded) && loadSize == old(loadSize)
    {
      GuardsExclusive(e);
      if e.assetId !in orderBooks {
        return;
      }
      var book := orderBooks[e.assetId];
      var changes := e.changes.value;
      var updatedBids := book.bids;
      var updatedAsks := book.asks;
      for i := 0 to |changes|
        invariant (updatedBids, updatedAsks) == ApplyChanges(book.bids, book.asks, changes[..i])
      {
        var change := changes[i];
        var isBuy := ToUpper(change.side) == "BUY";
        var target := if isBuy then updatedBids else updatedAsks;
        ghost var before := target;
        var existingIndex := FindIndex(target, Key(change.price));
        if change.size == 0.0 {
          if existingIndex != -1 {
            target := target[..existingIndex] + target[existingIndex + 1..];
          }
        } else if existingIndex != -1 {
          target := target[existingIndex := Level(target[existingIndex].price, change.size)];
        } else {
          target := target + [Level(change.price, change.size)];
        }
        assert target == ApplyLevelChange(before, change.price, change.size);
        if isBuy {
          updatedBids := target;
        } else {
          updatedAsks := target;
        }
        assert changes[..i + 1][..i] == changes[..i];
        assert (updatedBids, updatedAsks) == ApplyChangeToSides(ApplyChanges(book.bids, book.asks, changes[..i]).0,
                                                                ApplyChanges(book.bids, book.asks, changes[..i]).1, change);
      }
      assert changes[..|changes|] == changes;
      var updated := book.(bids := updatedBids, asks := updatedAsks, timestamp := e.timestamp, hash := e.hash);
      assert updated == ApplyBatch(book, e.timestamp, e.hash, changes);
      orderBooks := orderBooks[e.assetId := updated];
    }

    /** One event of a message, dispatched by its type guard; an unknown event changes nothing. */
    method HandleEvent(e: StreamEvent)
      requires Valid()
      modifies this
      ensures Valid()
      ensures orderBooks == ApplyEvent(old(orderBooks), e)
      ensures loaded == (old(loaded) || IsFullBookEvent(e)) && loadSize == old(loadSize)
    {
      if IsFullBookEvent(e) {
        ApplySnapshot(e);
      } else if IsPriceChangeEvent(e) {
        ApplyPriceChange(e);
      }
    }

    /** `ws.onmessage` on an already decoded message: its events in array order. */
    method OnMessage(data: seq<StreamEvent>)
      requires Valid()
      modifies this
      ensures Valid()
      ensures orderBooks == ApplyEvents(old(orderBooks), data)
      ensures loaded == (old(loaded) || HasSnapshot(data)) && loadSize == old(loadSize)
    {
      for i := 0 to |data|
        invariant Valid()
        invariant orderBooks == ApplyEvents(old(orderBooks), data[..i])
        invariant loaded == (old(loaded) || HasSnapshot(data[..i])) && loadSize == old(loadSize)
      {
        HandleEvent(data[i]);
        assert data[..i + 1][..i] == data[..i];
        assert data[..i + 1][i] == data[i];
      }
      assert data[..|data|] == data;
    }

    /** The chevron under each book: switch between 10 and 20 rows. */
    method ToggleLoadSize()
      requires Valid()
      modifies this
      ensures Valid()
      ensures loadSize == (if old(loadSize) == 10 then 20 else 10)
      ensures orderBooks == old(orderBooks) && loaded == old(loaded)
    {
      loadSize := if loadSize == 10 then 20 else 10;
    }
  }
}

=== FILE: order_book_types.dfy ===
/**
 * The wire and state records of the live order book, and the two type
 * guards that sort an inbound stream event into a full-book snapshot, an
 * incremental price-change batch or an unknown event.
 */
module OrderBookTypes {
  import opened Wrappers

  /** One price level (`Order`): a price and the size resting at it. */
  datatype Level = Level(price: real, size: real)

  /** The book of one asset (`MarketOrderBook`). */
  datatype MarketOrderBook = MarketOrderBook(
    market: string,
    assetId: string,
    timestamp: string,
    hash: string,
    bids: seq<Level>,
    asks: seq<Level>)

  /** One entry of a `price_change` batch, with price and size already decoded. */
  datatype PriceChangeEntry = PriceChangeEntry(price: real, size: real, side: string)

  /**
   * A decoded stream event before classification. A list field is `None`
   * when the object does not carry an array under that name.
   */
  datatype StreamEvent = StreamEvent(
    eventType: string,
    market: string,
    assetId: string,
    timestamp: string,
    hash: string,
    bids: Option<seq<Level>>,
    asks: Option<seq<Level>>,
    changes: Option<seq<PriceChangeEntry>>)

  datatype EventKind = FullBook | PriceChange | Unknown

  /** `isFullBookEvent`: a `book` event carrying both a bids and an asks array. */
  predicate IsFullBookEvent(e: StreamEvent) {
    e.eventType == "book" && e.bids.Some? && e.asks.Some?
  }

  /** `isPriceChangeEvent`: a `price_change` event carrying a changes array, possibly empty. */
  predicate IsPriceChangeEvent(e: StreamEvent) {
    e.eventType == "price_change" && e.changes.Some?
  }

  /** The dispatch of the message handler: the snapshot guard is tried first. */
  function Classify(e: StreamEvent): (k: EventKind)
    ensures k == FullBook <==> e.eventType == "book" && e.bids.Some? && e.asks.Some?
    ensures k == PriceChange <==> e.eventType == "price_change" && e.changes.Some?
    ensures k == Unknown <==> !IsFullBookEvent(e) && !IsPriceChangeEvent(e)
  {
    if IsFullBookEvent(e) then FullBook
    else if IsPriceChangeEvent(e) then PriceChange
    else Unknown
  }

  /** No event satisfies both guards, so the order in which they are tried never matters. */
  lemma GuardsExclusive(e: StreamEvent)
    ensures !(IsFullBookEvent(e) && IsPriceChangeEvent(e))
  {
    assert "book" != "price_change" by {
      assert "book"[0] != "price_change"[0];
    }
  }

  /** ASCII upper-casing, as `String.prototype.toUpperCase` does on ASCII text. */
  function ToUpper(s: string): (r: string)
    ensures |r| == |s|
    ensures forall i :: 0 <= i < |s| ==>
      r[i] == if 'a' <= s[i] <= 'z' then (s[i] as int - 32) as char else s[i]
  {
    if s == [] then []
    else
      [if 'a' <= s[0] <= 'z' then (s[0] as int - 32) as char else s[0]] + ToUpper(s[1..])
  }

  /** A change edits the bids exactly when its upper-cased side is `BUY`. */
  predicate IsBuy(side: string) {
    ToUpper(side) == "BUY"
  }

  /** Every spelling the wire type allows classifies as intended. */
  lemma SideSpellings()
    ensures IsBuy("BUY") && IsBuy("buy") && IsBuy("Buy")
    ensures !IsBuy("SELL") && !IsBuy("sell") && !IsBuy("Sell")
  {
    assert ToUpper("buy") == "BUY";
    assert ToUpper("Buy") == "BUY";
    assert ToUpper("BUY") == "BUY";
    assert |ToUpper("SELL")| == 4 && |ToUpper("sell")| == 4 && |ToUpper("Sell")| == 4;
  }

  /** A side is a buy side exactly when it spells `buy` in any mix of cases. */
  lemma IsBuyCaseInsensitive(side: string)
    ensures IsBuy(side) <==>
      |side| == 3 && side[0] in {'b', 'B'} && side[1] in {'u', 'U'} && side[2] in {'y', 'Y'}
  {
    var u := ToUpper(side);
    if |side| == 3 {
      assert u == [u[0], u[1], u[2]];
      assert "BUY" == ['B', 'U', 'Y'];
    }
  }
}

=== FILE: price_chart.dfy ===
/**
 * The data side of the multi-line price chart: the time-interval window
 * filter over raw price-history points, point processing (drop invalid
 * points, sort by date), per-dataset colour choice, the "can draw" check
 * and the tooltip's binary search for the point nearest a date.
 * Dates are integer milliseconds; a raw point carries `t` in seconds.
 */
module PriceChart {
  import opened Wrappers
  import opened Sorting
  import opened Sequences

  /** A raw `{t, p}` point; a field is `None` when `parseInt` / `parseFloat` gives NaN. */
  datatype RawPoint = RawPoint(t: Option<int>, p: Option<real>)

  datatype InputDataset = InputDataset(name: string, color: Option<string>, data: seq<RawPoint>)

  /** A processed point: date in milliseconds and price. */
  datatype Point = Point(date: int, value: real)

  datatype ProcessedDataset = ProcessedDataset(name: string, color: Option<string>, points: seq<Point>)

  datatype TimeInterval = OneHour | SixHours | Day | Week | Month | All

  const HourMs: int := 60 * 60 * 1000

  /** The window of an interval in milliseconds; `All` has none. */
  function WindowMs(iv: TimeInterval): Option<int> {
    match iv
    case OneHour => Some(HourMs)
    case SixHours => Some(6 * HourMs)
    case Day => Some(24 * HourMs)
    case Week => Some(7 * 24 * HourMs)
    case Month => Some(30 * 24 * HourMs)
    case All => None
  }

  /** The position of an interval in the button row, shortest first. */
  function Rank(iv: TimeInterval): nat {
    match iv
    case OneHour => 0
    case SixHours => 1
    case Day => 2
    case Week => 3
    case Month => 4
    case All => 5
  }

  /**
   * The filter predicate: `now - t * 1000 <= window`. A NaN `t` makes the
   * comparison false, so such a point survives only `All`.
   */
  predicate Keep(iv: TimeInterval, nowMs: int, d: RawPoint) {
    match WindowMs(iv)
    case None => true
    case Some(w) => d.t.Some? && nowMs - d.t.value * 1000 <= w
  }

  /** The points of one dataset that the selected interval keeps, in their original order. */
  function FilterByInterval(data: seq<RawPoint>, iv: TimeInterval, nowMs: int): (r: seq<RawPoint>)
    ensures |r| <= |data|
    ensures forall i :: 0 <= i < |r| ==> r[i] in data && Keep(iv, nowMs, r[i])
    ensures forall i :: 0 <= i < |data| && Keep(iv, nowMs, data[i]) ==> data[i] in r
    ensures forall d :: multiset(r)[d] == if Keep(iv, nowMs, d) then multiset(data)[d] else 0
  {
    if data == [] then []
    else
      var rest := FilterByInterval(data[1..], iv, nowMs);
      assert forall i :: 1 <= i < |data| ==> data[i] == data[1..][i - 1];
      assert data == [data[0]] + data[1..];
      assert multiset(data) == multiset{data[0]} + multiset(data[1..]);
      if Keep(iv, nowMs, data[0]) then [data[0]] + rest else rest
  }

  /** The filter only removes points: what it keeps is a subsequence of the input. */
  lemma {:induction false} FilterIsSubsequence(data: seq<RawPoint>, iv: TimeInterval, nowMs: int)
    ensures IsSubsequence(FilterByInterval(data, iv, nowMs), data)
  {
    if data != [] {
      FilterIsSubsequence(data[1..], iv, nowMs);
    }
  }

  /** `All` keeps every point, in order. */
  lemma {:induction false} FilterAllKeepsEverything(data: seq<RawPoint>, nowMs: int)
    ensures FilterByInterval(data, All, nowMs) == data
  {
    if data != [] {
      FilterAllKeepsEverything(data[1..], nowMs);
    }
  }

  /** The windows are nested: a point kept for a shorter interval is kept for every longer one. */
  lemma WindowsNested(a: TimeInterval, b: TimeInterval, nowMs: int, d: RawPoint)
    requires Rank(a) <= Rank(b)
    ensures Keep(a, nowMs, d) ==> Keep(b, nowMs, d)
  {
  }

  /** So the points kept for a shorter interval are a subsequence of those kept for a longer one. */
  lemma {:induction false} FilterNested(data: seq<RawPoint>, a: TimeInterval, b: TimeInterval, nowMs: int)
    requires Rank(a) <= Rank(b)
    ensures IsSubsequence(FilterByInterval(data, a, nowMs), FilterByInterval(data, b, nowMs))
  {
    if data != [] {
      WindowsNested(a, b, nowMs, data[0]);
      FilterNested(data[1..], a, b, nowMs);
      var fb := FilterByInterval(data, b, nowMs);
      if !Keep(a, nowMs, data[0]) && Keep(b, nowMs, data[0]) {
        assert fb[1..] == FilterByInterval(data[1..], b, nowMs);
      }
    }
  }

  /** The raw point a processed point comes from: `t` is the date in seconds, `p` the value. */
  function Source(pt: Point): RawPoint {
    RawPoint(Some(pt.date / 1000), Some(pt.value))
  }

  /**
   * The points that parse: both `t` and `p` are numbers; the date is `t`
   * seconds in milliseconds.
   */
  function ValidPoints(data: seq<RawPoint>): (r: seq<Point>)
    ensures |r| <= |data|
    ensures forall i :: 0 <= i < |r| ==>
      exists j :: 0 <= j < |data| && data[j] == Source(r[i]) && r[i].date % 1000 == 0
  {
    if data == [] then []
    else
      var rest := ValidPoints(data[1..]);
      assert forall j :: 1 <= j < |data| ==> data[j] == data[1..][j - 1];
      match data[0]
      case RawPoint(Some(t), Some(p)) => [Point(t * 1000, p)] + rest
      case _ => rest
  }

  /** A whole-second date determines its raw point: the only point from `(t, p)` is `Point(t * 1000, p)`. */
  lemma SourceInjective(pt: Point, t: int, p: real)
    requires pt.date % 1000 == 0
    ensures Source(pt) == RawPoint(Some(t), Some(p)) <==> pt == Point(t * 1000, p)
  {
  }

  /**
   * No valid point is lost or invented: each raw point whose `t` and `p`
   * both parse gives exactly one processed point, counted with multiplicity,
   * and no other raw point gives one.
   */
  lemma {:induction false} ValidPointsComplete(data: seq<RawPoint>)
    ensures forall pt :: multiset(ValidPoints(data))[pt] == if pt.date % 1000 == 0 then multiset(data)[Source(pt)] else 0
  {
    if data != [] {
      ValidPointsComplete(data[1..]);
      assert data == [data[0]] + data[1..];
      assert multiset(data) == multiset{data[0]} + multiset(data[1..]);
      var r := ValidPoints(data);
      var rest := ValidPoints(data[1..]);
      match data[0]
      case RawPoint(Some(t), Some(p)) =>
        assert r == [Point(t * 1000, p)] + rest;
        forall pt ensures multiset(r)[pt] == if pt.date % 1000 == 0 then multiset(data)[Source(pt)] else 0 {
          if pt.date % 1000 == 0 {
            SourceInjective(pt, t, p);
          }
        }
      case _ =>
        assert r == rest;
    }
  }

  function DateKey(pt: Point): real { pt.date as real }

  /** Non-decreasing by date. */
  ghost predicate SortedByDate(points: seq<Point>) {
    forall i, j :: 0 <= i < j < |points| ==> points[i].date <= points[j].date
  }

  /** A dataset's processed points: the valid ones, sorted ascending by date. */
  function ProcessPoints(data: seq<RawPoint>): (r: seq<Point>)
    ensures SortedByDate(r)
    ensures multiset(r) == multiset(ValidPoints(data))
  {
    var r := SortBy(ValidPoints(data), DateKey);
    assert forall i, j :: 0 <= i < j < |r| ==> DateKey(r[i]) <= DateKey(r[j]);
    r
  }

  const DefaultColors: seq<string> := [
    "#1f77b4", "#ff7f0e", "#2ca02c", "#d62728", "#9467bd",
    "#8c564b", "#e377c2", "#7f7f7f", "#bcbd22", "#17becf"
  ]

  /**
   * `dataset.color || defaultColors[index % defaultColors.length]`: the
   * dataset's own colour when it is a non-empty string, else the palette
   * entry at `index` cycled; `undefined` for an empty palette.
   */
  function DatasetColor(color: Option<string>, index: nat, palette: seq<string>): (r: Option<string>)
    ensures color.Some? && color.value != "" ==> r == color
    ensures (color.None? || color.value == "") && |palette| > 0 ==> r.Some? && r.value in palette
    ensures (color.None? || color.value == "") && |palette| == 0 ==> r.None?
  {
    if color.Some? && color.value != "" then color
    else if |palette| > 0 then Some(palette[index % |palette|])
    else None
  }

  /** The default colours cycle: datasets ten places apart get the same default colour. */
  lemma DefaultColorsCycle(color: Option<string>, index: nat)
    ensures DatasetColor(color, index + 10, DefaultColors) == DatasetColor(color, index, DefaultColors)
  {
  }

  /**
   * A dataset without its own colour (none, or the empty string) at index
   * `i` gets palette entry `i mod |palette|`; under the default palette that
   * is the `i mod 10`-th default colour.
   */
  lemma DefaultColorAt(color: Option<string>, index: nat, palette: seq<string>)
    requires color.None? || color.value == ""
    requires |palette| > 0
    ensures DatasetColor(color, index, palette) == Some(palette[index % |palette|])
    ensures DatasetColor(color, index, DefaultColors) == Some(DefaultColors[index % 10])
  {
  }

  function ProcessDataset(ds: InputDataset, index: nat, palette: seq<string>): ProcessedDataset {
    ProcessedDataset(ds.name, DatasetColor(ds.color, index, palette), ProcessPoints(ds.data))
  }

  /** `datasets.map((dataset, index) => ...)`. */
  function ProcessDatasets(datasets: seq<InputDataset>, palette: seq<string>): (r: seq<ProcessedDataset>)
    ensures |r| == |datasets|
    ensures forall i :: 0 <= i < |r| ==>
      r[i].name == datasets[i].name && SortedByDate(r[i].points)
      && r[i].points == ProcessPoints(datasets[i].data)
      && r[i].color == DatasetColor(datasets[i].color, i, palette)
  {
    seq(|datasets|, i requires 0 <= i < |datasets| => ProcessDataset(datasets[i], i, palette))
  }

  /** `canDraw`: some dataset has at least two points. */
  function CanDraw(pds: seq<ProcessedDataset>): (r: bool)
    ensures r <==> exists i :: 0 <= i < |pds| && |pds[i].points| >= 2
  {
    if pds == [] then false
    else
      assert forall i :: 1 <= i < |pds| ==> pds[i] == pds[1..][i - 1];
      |pds[0].points| >= 2 || CanDraw(pds[1..])
  }

  /**
   * `bisectDate`: a binary search that keeps `left < right`, moving `right`
   * to `mid` when `points[mid].date > date` and `left` otherwise, and
   * returns `points[left]` (`None` for an empty array).
   * For a non-empty array the index is at most `max(0, n - 2)`, so for two
   * or more points the last one is never returned. For an array sorted by
   * date, every point after the first and up to the index is at or before
   * `date`, and every point after the index but before the last is after it.
   */
  method BisectDate(points: seq<Point>, date: int) returns (left: nat, point: Option<Point>)
    ensures |points| == 0 ==> left == 0 && point == None
    ensures |points| > 0 ==> left <= if |points| >= 2 then |points| - 2 else 0
    ensures |points| > 0 ==> point == Some(points[left])
    ensures SortedByDate(points) ==> forall j :: 0 < j <= left && j < |points| ==> points[j].date <= date
    ensures SortedByDate(points) ==> forall j :: left < j < |points| - 1 ==> points[j].date > date
  {
    left := 0;
    var right := |points| - 1;
    while right - left > 1
      invariant 0 <= left
      invariant |points| >= 2 ==> left < right <= |points| - 1
      invariant |points| < 2 ==> left == 0 && right == |points| - 1
      invariant SortedByDate(points) ==> left == 0 || points[left].date <= date
      invariant SortedByDate(points) ==> right == |points| - 1 || points[right].date > date
      decreases right - left
    {
      var mid := (left + right) / 2;
      if points[mid].date > date {
        right := mid;
      } else {
        left := mid;
      }
    }
    point := if left < |points| then Some(points[left]) else None;
  }
}

=== FILE: price_levels.dfy ===
/**
 * One side (bids or asks) of a book as a sequence of levels, and the
 * per-entry edit of a `price_change` batch: levels are matched by their
 * price rounded to 5 decimals, a size of 0 deletes the first match, any
 * other size overwrites the first match or appends a new level.
 */
module PriceLevels {
  import opened Wrappers
  import opened OrderBookTypes
  import opened JsMath

  /** Ticks per unit of price: prices are compared after rounding to 5 decimals. */
  const TicksPerUnit: real := 100000.0

  /**
   * The integer tick of a price: `Math.round(p * 1e5)`. Two prices match
   * exactly when their ticks are equal.
   */
  function Key(p: real): int {
    Round(p * TicksPerUnit)
  }

  /** The rounded price `Math.round(p * 1e5) / 1e5`. */
  function Normalize(p: real): real {
    Key(p) as real / TicksPerUnit
  }

  /** Rounding is idempotent: a normalised price is its own key. */
  lemma NormalizeIdempotent(p: real)
    ensures Key(Normalize(p)) == Key(p)
    ensures Normalize(Normalize(p)) == Normalize(p)
  {
    var k := Key(p);
    assert Normalize(p) * TicksPerUnit == k as real;
    assert (k as real + 0.5).Floor == k;
  }

  /** `Key` is the nearest tick: the price lies within half a tick of it. */
  lemma KeyIsNearestTick(p: real)
    ensures Key(p) as real - 0.5 <= p * TicksPerUnit < Key(p) as real + 0.5
  {
  }

  /** 0.320004999 and 0.320005001 round to different 5-decimal prices. */
  lemma HalfTickApart()
    ensures Key(0.320004999) == 32000 && Key(0.320005001) == 32001
  {
    assert 0.320004999 * TicksPerUnit + 0.5 == 32000.9999;
    assert 0.320005001 * TicksPerUnit + 0.5 == 32001.0001;
  }

  /** `findIndex`: the first index whose level rounds to tick `k`, or -1. */
  function FindIndex(side: seq<Level>, k: int): (i: int)
    ensures -1 <= i < |side|
    ensures i == -1 <==> forall j :: 0 <= j < |side| ==> Key(side[j].price) != k
    ensures i >= 0 ==> Key(side[i].price) == k
    ensures i >= 0 ==> forall j :: 0 <= j < i ==> Key(side[j].price) != k
  {
    if side == [] then -1
    else if Key(side[0].price) == k then 0
    else
      var i := FindIndex(side[1..], k);
      if i == -1 then -1 else i + 1
  }

  /** No two levels of a side round to the same price. */
  ghost predicate UniqueKeys(side: seq<Level>) {
    forall i, j :: 0 <= i < j < |side| ==> Key(side[i].price) != Key(side[j].price)
  }

  /** The size shown at tick `k`: that of the first level rounding to `k`. */
  function SizeAt(side: seq<Level>, k: int): (r: Option<real>)
    ensures r.None? <==> forall j :: 0 <= j < |side| ==> Key(side[j].price) != k
    ensures r.Some? ==> exists j :: 0 <= j < |side| && Key(side[j].price) == k && side[j].size == r.value
  {
    var i := FindIndex(side, k);
    if i == -1 then None else Some(side[i].size)
  }

  /** One entry of a batch applied to the side it targets. */
  function ApplyLevelChange(side: seq<Level>, price: real, size: real): (r: seq<Level>)
    ensures |side| - 1 <= |r| <= |side| + 1
    ensures size == 0.0 ==> |r| <= |side|
    ensures size != 0.0 ==> |r| >= |side|
  {
    var i := FindIndex(side, Key(price));
    if size == 0.0 then
      if i == -1 then side else side[..i] + side[i + 1..]
    else if i == -1 then
      side + [Level(price, size)]
    else
      side[i := Level(side[i].price, size)]
  }

  /** A zero size removes the first level at the change's tick, if any, and nothing else. */
  lemma ZeroSizeRemovesFirstMatch(side: seq<Level>, price: real)
    ensures var i := FindIndex(side, Key(price));
            var r := ApplyLevelChange(side, price, 0.0);
            && (i == -1 ==> r == side)
            && (i >= 0 ==>
                  && |r| == |side| - 1
                  && (forall j :: 0 <= j < i ==> r[j] == side[j])
                  && (forall j :: i <= j < |r| ==> r[j] == side[j + 1]))
  {
  }

  /**
   * A non-zero size overwrites only the size of the first matching level,
   * or appends the level with its unrounded price; the side grows by at most one.
   */
  lemma NonZeroSizeUpserts(side: seq<Level>, price: real, size: real)
    requires size != 0.0
    ensures var i := FindIndex(side, Key(price));
            var r := ApplyLevelChange(side, price, size);
            && (i == -1 ==> r == side + [Level(price, size)])
            && (i >= 0 ==>
                  && |r| == |side|
                  && r[i] == Level(side[i].price, size)
                  && (forall j :: 0 <= j < |side| && j != i ==> r[j] == side[j]))
  {
  }

  /** Every level left after an edit was in the side before, or is the one just written. */
  lemma ApplyLevelChangeBounds(side: seq<Level>, price: real, size: real)
    ensures var r := ApplyLevelChange(side, price, size);
            |side| - 1 <= |r| <= |side| + 1
            && (size == 0.0 ==> |r| <= |side|)
            && (forall j :: 0 <= j < |r| ==> r[j].size == size || r[j] in side)
  {
    var i := FindIndex(side, Key(price));
    var r := ApplyLevelChange(side, price, size);
    if size == 0.0 && i >= 0 {
      forall j | 0 <= j < |r| ensures r[j] in side {
        if j < i { assert r[j] == side[j]; } else { assert r[j] == side[j + 1]; }
      }
    }
  }

  /** Removing one level keeps ticks unique. */
  lemma RemoveKeepsUnique(side: seq<Level>, i: int)
    requires UniqueKeys(side)
    requires 0 <= i < |side|
    ensures UniqueKeys(side[..i] + side[i + 1..])
  {
    var r := side[..i] + side[i + 1..];
    forall a, b | 0 <= a < b < |r| ensures Key(r[a].price) != Key(r[b].price) {
      var a' := if a < i then a else a + 1;
      var b' := if b < i then b else b + 1;
      assert r[a] == side[a'] && r[b] == side[b'];
    }
  }

  /** Appending a level at a fresh tick keeps ticks unique. */
  lemma AppendKeepsUnique(side: seq<Level>, l: Level)
    requires UniqueKeys(side)
    requires forall j :: 0 <= j < |side| ==> Key(side[j].price) != Key(l.price)
    ensures UniqueKeys(side + [l])
  {
    var r := side + [l];
    forall a, b | 0 <= a < b < |r| ensures Key(r[a].price) != Key(r[b].price) {
      assert r[a] == side[a];
      if b < |side| {
        assert r[b] == side[b];
      }
    }
  }

  /** An edit keeps the tick of every level it leaves in place, so it keeps keys unique. */
  lemma ApplyLevelChangeKeepsUnique(side: seq<Level>, price: real, size: real)
    requires UniqueKeys(side)
    ensures UniqueKeys(ApplyLevelChange(side, price, size))
  {
    var i := FindIndex(side, Key(price));
    if size == 0.0 && i >= 0 {
      RemoveKeepsUnique(side, i);
    } else if size != 0.0 && i == -1 {
      AppendKeepsUnique(side, Level(price, size));
    } else if size != 0.0 {
      var r := side[i := Level(side[i].price, size)];
      assert forall j :: 0 <= j < |r| ==> r[j].price == side[j].price;
    }
  }

  /**
   * Scenario: a snapshot may hold two unrounded prices on one tick. A size-0
   * entry at that tick then removes only the first of them, and the tick
   * still shows the second one's size.
   */
  lemma SharedTickRemovesFirstOnly()
    ensures Key(0.320001) == 32000 && Key(0.320002) == 32000 && Key(0.32) == 32000
    ensures var side := [Level(0.320001, 1.0), Level(0.320002, 2.0)];
            var r := ApplyLevelChange(side, 0.32, 0.0);
            && r == [Level(0.320002, 2.0)]
            && SizeAt(r, Key(0.32)) == Some(2.0)
  {
    assert 0.320001 * TicksPerUnit + 0.5 == 32000.6;
    assert 0.320002 * TicksPerUnit + 0.5 == 32000.7;
    assert 0.32 * TicksPerUnit + 0.5 == 32000.5;
    var side := [Level(0.320001, 1.0), Level(0.320002, 2.0)];
    assert FindIndex(side, 32000) == 0;
  }

  /** With unique ticks, the size at a tick is that of the one level at that tick. */
  lemma SizeAtUnique(side: seq<Level>, k: int, j: int)
    requires UniqueKeys(side)
    requires 0 <= j < |side| && Key(side[j].price) == k
    ensures SizeAt(side, k) == Some(side[j].size)
  {
    var i := FindIndex(side, k);
    assert i <= j;
    assert i == j;
  }

  /** Removing the level at index `i` leaves every other tick's size as it was. */
  lemma SizeAtAfterRemove(side: seq<Level>, i: int, k: int)
    requires UniqueKeys(side)
    requires 0 <= i < |side|
    ensures var r := side[..i] + side[i + 1..];
            SizeAt(r, k) == if k == Key(side[i].price) then None else SizeAt(side, k)
  {
    var r := side[..i] + side[i + 1..];
    assert forall j :: 0 <= j < i ==> r[j] == side[j];
    assert forall j :: i <= j < |r| ==> r[j] == side[j + 1];
    var m := FindIndex(side, k);
    if k != Key(side[i].price) && m >= 0 {
      var m' := if m < i then m else m - 1;
      assert r[m'] == side[m];
      RemoveKeepsUnique(side, i);
      SizeAtUnique(r, k, m');
    } else {
      forall j | 0 <= j < |r| ensures Key(r[j].price) != k {
        if j < i { assert r[j] == side[j]; } else { assert r[j] == side[j + 1]; }
      }
    }
  }

  /** Appending a level at a fresh tick shows its size there and changes no other tick. */
  lemma SizeAtAfterAppend(side: seq<Level>, l: Level, k: int)
    requires UniqueKeys(side)
    requires forall j :: 0 <= j < |side| ==> Key(side[j].price) != Key(l.price)
    ensures SizeAt(side + [l], k) == if k == Key(l.price) then Some(l.size) else SizeAt(side, k)
  {
    var r := side + [l];
    assert forall j :: 0 <= j < |side| ==> r[j] == side[j];
    assert UniqueKeys(r);
    if k == Key(l.price) {
      SizeAtUnique(r, k, |side|);
    } else {
      var m := FindIndex(side, k);
      if m >= 0 {
        SizeAtUnique(r, k, m);
      } else {
        assert forall j :: 0 <= j < |r| ==> Key(r[j].price) != k;
      }
    }
  }

  /** Overwriting the size at index `i` shows the new size at its tick and changes no other tick. */
  lemma SizeAtAfterOverwrite(side: seq<Level>, i: int, size: real, k: int)
    requires UniqueKeys(side)
    requires 0 <= i < |side|
    ensures var r := side[i := Level(side[i].price, size)];
            SizeAt(r, k) == if k == Key(side[i].price) then Some(size) else SizeAt(side, k)
  {
    var r := side[i := Level(side[i].price, size)];
    assert UniqueKeys(r);
    if k == Key(side[i].price) {
      SizeAtUnique(r, k, i);
    } else {
      var m := FindIndex(side, k);
      if m >= 0 {
        SizeAtUnique(r, k, m);
      } else {
        assert forall j :: 0 <= j < |r| ==> Key(r[j].price) != k;
      }
    }
  }

  /**
   * The size read at any tick after one edit: the written size at the
   * change's own tick (none for a zero size), the old size elsewhere.
   */
  lemma SizeAtAfterChange(side: seq<Level>, price: real, size: real, k: int)
    requires UniqueKeys(side)
    ensures SizeAt(ApplyLevelChange(side, price, size), k) ==
      if k == Key(price) then (if size == 0.0 then None else Some(size))
      else SizeAt(side, k)
  {
    var i := FindIndex(side, Key(price));
    if size == 0.0 {
      if i >= 0 {
        SizeAtAfterRemove(side, i, k);
      }
    } else if i == -1 {
      SizeAtAfterAppend(side, Level(price, size), k);
    } else {
      SizeAtAfterOverwrite(side, i, size, k);
    }
  }
}

=== FILE: search_bar.dfy ===
/**
 * The search box: the query, the result list and the keyboard selection,
 * updated by typing, clearing, the arrow/Enter/Escape keys and the
 * debounced search. The network response is a parameter; the slugs handed
 * to the `onSearch` callback are recorded in order.
 */
module SearchBar {
  import opened Wrappers

  datatype SearchResult = SearchResult(id: string, title: string, slug: string)

  /** What the search request produced: a failure, or a body whose `events` may be missing. */
  datatype SearchResponse = NetworkError | Received(events: Option<seq<SearchResult>>)

  /** Queries shorter than this clear the results without searching. */
  const MinQueryLength: nat := 2

  /** The ArrowDown updater: step down unless already on the last result. */
  function ArrowDownIndex(prev: int, count: nat): (r: int)
    ensures r == prev || r == prev + 1
    ensures r == prev + 1 <==> prev < count - 1
    ensures -1 <= prev < count ==> -1 <= r < count
  {
    if prev < count - 1 then prev + 1 else prev
  }

  /** The ArrowUp updater: step up only from a positive index, so 0 and -1 stay put. */
  function ArrowUpIndex(prev: int): (r: int)
    ensures r == prev || r == prev - 1
    ensures r == prev - 1 <==> prev > 0
    ensures prev >= -1 ==> r >= -1
    ensures prev <= 0 ==> r == prev
  {
    if prev > 0 then prev - 1 else prev
  }

  /** The index after a sequence of presses, `true` for ArrowDown and `false` for ArrowUp. */
  function ApplyArrows(start: int, count: nat, downs: seq<bool>): int {
    if downs == [] then start
    else
      var prev := ApplyArrows(start, count, downs[..|downs| - 1]);
      if downs[|downs| - 1] then ArrowDownIndex(prev, count) else ArrowUpIndex(prev)
  }

  /** Starting inside `[-1, count - 1]`, any sequence of arrow presses stays inside it. */
  lemma {:induction false} ArrowsStayInRange(start: int, count: nat, downs: seq<bool>)
    requires -1 <= start < count
    ensures -1 <= ApplyArrows(start, count, downs) < count
  {
    if downs != [] {
      ArrowsStayInRange(start, count, downs[..|downs| - 1]);
    }
  }

  class SearchBox {
    var query: string
    var results: seq<SearchResult>
    var selectedIndex: int
    var searched: seq<string>

    constructor ()
      ensures query == "" && results == [] && selectedIndex == -1 && searched == []
    {
      query := "";
      results := [];
      selectedIndex := -1;
      searched := [];
    }

    /** `handleChange`: take the typed text and drop the selection. */
    method HandleChange(value: string)
      modifies this
      ensures query == value && selectedIndex == -1
      ensures results == old(results) && searched == old(searched)
    {
      query := value;
      selectedIndex := -1;
    }

    /** `handleClear`: empty the query and the results and drop the selection. */
    method HandleClear()
      modifies this
      ensures query == "" && results == [] && selectedIndex == -1
      ensures searched == old(searched)
    {
      query := "";
      results := [];
      selectedIndex := -1;
    }

    /** `handleSelect`: show the chosen title, close the list and report its slug. The selection is kept. */
    method HandleSelect(result: SearchResult)
      modifies this
      ensures query == result.title && results == []
      ensures searched == old(searched) + [result.slug]
      ensures selectedIndex == old(selectedIndex)
    {
      query := result.title;
      results := [];
      searched := searched + [result.slug];
    }

    /** `handleKeyDown`: every key is ignored while there are no results. */
    method HandleKeyDown(key: string)
      modifies this
      ensures old(results) == [] ==>
        query == old(query) && results == old(results) && selectedIndex == old(selectedIndex) && searched == old(searched)
      ensures old(results) != [] && key == "ArrowDown" ==>
        selectedIndex == ArrowDownIndex(old(selectedIndex), |old(results)|)
        && query == old(query) && results == old(results) && searched == old(searched)
      ensures old(results) != [] && key == "ArrowUp" ==>
        selectedIndex == ArrowUpIndex(old(selectedIndex))
        && query == old(query) && results == old(results) && searched == old(searched)
      ensures old(results) != [] && key == "Enter" && 0 <= old(selectedIndex) < |old(results)| ==>
        query == old(results)[old(selectedIndex)].title && results == []
        && searched == old(searched) + [old(results)[old(selectedIndex)].slug]
        && selectedIndex == old(selectedIndex)
      ensures old(results) != [] && key == "Enter" && !(0 <= old(selectedIndex) < |old(results)|) ==>
        query == old(query) && results == old(results) && selectedIndex == old(selectedIndex) && searched == old(searched)
      ensures old(results) != [] && key == "Escape" ==>
        results == [] && query == old(query) && selectedIndex == old(selectedIndex) && searched == old(searched)
      ensures key !in {"ArrowDown", "ArrowUp", "Enter", "Escape"} ==>
        query == old(query) && results == old(results) && selectedIndex == old(selectedIndex) && searched == old(searched)
    {
      if |results| == 0 {
        return;
      }
      if key == "ArrowDown" {
        selectedIndex := ArrowDownIndex(selectedIndex, |results|);
      } else if key == "ArrowUp" {
        selectedIndex := ArrowUpIndex(selectedIndex);
      } else if key == "Enter" {
        if selectedIndex >= 0 && selectedIndex < |results| {
          HandleSelect(results[selectedIndex]);
        }
      } else if key == "Escape" {
        results := [];
      }
    }

    /**
     * The debounced search for the current query: a query shorter than two
     * characters clears the results and sends no request; otherwise the
     * results are the response's events, or none on a failure or a missing
     * `events` field. Returns whether a request was sent.
     */
    method RunSearch(response: SearchResponse) returns (requested: bool)
      modifies this
      ensures requested <==> |old(query)| >= MinQueryLength
      ensures !requested ==> results == []
      ensures requested ==> results == (if response.Received? then response.events.GetOr([]) else [])
      ensures query == old(query) && selectedIndex == old(selectedIndex) && searched == old(searched)
    {
      if |query| < MinQueryLength {
        results := [];
        return false;
      }
      requested := true;
      match response
      case NetworkError => results := [];
      case Received(events) => results := events.GetOr([]);
    }
  }
}

=== FILE: sequences.dfy ===
/** Small facts about sequences and integers shared by the views. */
module Sequences {

  function Min(a: int, b: int): int { if a <= b then a else b }

  function Max(a: int, b: int): int { if a >= b then a else b }

  /** `a` is `b` with some elements removed and the rest in the same order. */
  predicate IsSubsequence<T(==)>(a: seq<T>, b: seq<T>)
    decreases |b|
  {
    a == [] || (b != [] && ((a[0] == b[0] && IsSubsequence(a[1..], b[1..])) || IsSubsequence(a, b[1..])))
  }
}

=== FILE: sorting.dfy ===
/**
 * An insertion sort over a numeric sort key. JavaScript's
 * `Array.prototype.sort` with a comparator `(a, b) => key(a) - key(b)`
 * orders by ascending key; sorting by descending price is sorting by the
 * key `-price`.
 */
module Sorting {

  /** `s` is in non-decreasing order of `key`. */
  ghost predicate SortedBy<T>(s: seq<T>, key: T -> real) {
    forall i, j :: 0 <= i < j < |s| ==> key(s[i]) <= key(s[j])
  }

  /** Inserts `x` into the sorted `s` in front of the first element whose key is not smaller. */
  function Insert<T>(x: T, s: seq<T>, key: T -> real): (r: seq<T>)
    requires SortedBy(s, key)
    ensures |r| == |s| + 1
    ensures SortedBy(r, key)
    ensures multiset(r) == multiset(s) + multiset{x}
    ensures key(r[0]) == key(x) || (|s| > 0 && key(r[0]) == key(s[0]))
  {
    if s == [] || key(x) <= key(s[0]) then
      [x] + s
    else
      var rest := Insert(x, s[1..], key);
      assert s == [s[0]] + s[1..];
      [s[0]] + rest
  }

  /** The elements of `s` in non-decreasing order of `key`. */
  function SortBy<T>(s: seq<T>, key: T -> real): (r: seq<T>)
    ensures |r| == |s|
    ensures SortedBy(r, key)
    ensures multiset(r) == multiset(s)
  {
    if s == [] then
      []
    else
      assert s == [s[0]] + s[1..];
      Insert(s[0], SortBy(s[1..], key), key)
  }
}

=== FILE: top_holders.dfy ===
/**
 * The top-holders panel: the display-name rule for a holder, the
 * ten-item collapse of each list, and the split of the fetched token lists
 * into the "yes" and "no" holders.
 */
module TopHolders {
  import opened Wrappers
  import opened Sequences

  /** The fields of a holder that the panel reads; a missing or null `name` or `pseudonym` is "". */
  datatype Holder = Holder(proxyWallet: string, pseudonym: string, displayUsernamePublic: bool, name: string)

  datatype TokenHolderList = TokenHolderList(token: string, holders: seq<Holder>)

  function Clamp(i: int, len: nat): (r: nat)
    ensures r <= len
  {
    if i < 0 then 0 else if i > len then len else i
  }

  /** `String.prototype.substring(start, end)`: both ends clamped to the string, swapped when reversed. */
  function Substring(s: string, start: int, end: int): (r: string)
    ensures var lo := Clamp(start, |s|);
            var hi := Clamp(end, |s|);
            && |r| == (if lo <= hi then hi - lo else lo - hi)
            && forall i :: 0 <= i < |r| ==> r[i] == s[(if lo <= hi then lo else hi) + i]
  {
    var lo := Clamp(start, |s|);
    var hi := Clamp(end, |s|);
    if lo <= hi then s[lo..hi] else s[hi..lo]
  }

  /** The wallet fallback: first six characters, `...`, last four. */
  function WalletLabel(w: string): (r: string)
    ensures |r| == (if |w| < 6 then |w| else 6) + 3 + (if |w| < 4 then |w| else 4)
    ensures |w| >= 6 ==> r[..6] == w[..6]
    ensures |w| >= 4 ==> r[|r| - 4..] == w[|w| - 4..]
    ensures |w| >= 10 ==> r == w[..6] + "..." + w[|w| - 4..] && |r| == 13
  {
    Substring(w, 0, 6) + "..." + Substring(w, |w| - 4, |w|)
  }

  /** The name before truncation: the public username, else the pseudonym, else the wallet label. */
  function ChosenName(h: Holder): string {
    if h.displayUsernamePublic && h.name != "" then h.name
    else if h.pseudonym != "" then h.pseudonym
    else WalletLabel(h.proxyWallet)
  }

  /** Names longer than 16 characters are cut to 16 followed by `...`. */
  function Truncate(name: string): (r: string)
    ensures |name| <= 16 ==> r == name
    ensures |name| > 16 ==> r == name[..16] + "..." && |r| == 19
    ensures |r| <= 19
  {
    if |name| > 16 then name[..16] + "..." else name
  }

  /** `getHolderDisplayName`. */
  function DisplayName(h: Holder): (r: string)
    ensures |r| <= 19
  {
    Truncate(ChosenName(h))
  }

  /** Which source the display name comes from, and that it is never empty. */
  lemma DisplayNameSource(h: Holder)
    ensures h.displayUsernamePublic && h.name != "" ==> DisplayName(h) == Truncate(h.name)
    ensures !(h.displayUsernamePublic && h.name != "") && h.pseudonym != "" ==> DisplayName(h) == Truncate(h.pseudonym)
    ensures !(h.displayUsernamePublic && h.name != "") && h.pseudonym == "" ==>
      DisplayName(h) == WalletLabel(h.proxyWallet)
    ensures |DisplayName(h)| > 0
  {
  }

  /** `isExpanded ? holders : holders.slice(0, 10)`. */
  function VisibleHolders(holders: seq<Holder>, isExpanded: bool): (r: seq<Holder>)
    ensures isExpanded ==> r == holders
    ensures !isExpanded ==> |r| == Min(|holders|, 10)
    ensures r == holders[..|r|]
  {
    if isExpanded then holders else holders[..Min(|holders|, 10)]
  }

  /** `hasMore`: more than ten holders and the list is collapsed. */
  predicate HasMore(holders: seq<Holder>, isExpanded: bool) {
    |holders| > 10 && !isExpanded
  }

  /** The "more" chevron is shown exactly when the visible list hides some holders. */
  lemma HasMoreIffHidden(holders: seq<Holder>, isExpanded: bool)
    ensures HasMore(holders, isExpanded) <==> |VisibleHolders(holders, isExpanded)| < |holders|
  {
  }

  /** The outcome of loading the holders of one market. */
  datatype HolderSplit = FetchFailed | Split(yes: Option<TokenHolderList>, no: Option<TokenHolderList>)

  /** `info[i]`, `undefined` past the end. */
  function Entry(info: seq<TokenHolderList>, i: nat): Option<TokenHolderList> {
    if i < |info| then Some(info[i]) else None
  }

  /** Picks `info[0]` as the yes list when `isYes` holds and `info[1]` otherwise; no list is the other one. */
  function SplitOn(info: seq<TokenHolderList>, isYes: bool): (r: HolderSplit)
    requires |info| > 0
    ensures r.Split?
    ensures (r.yes == Entry(info, 0) && r.no == Entry(info, 1)) || (r.yes == Entry(info, 1) && r.no == Entry(info, 0))
  {
    Split(if isYes then Entry(info, 0) else Entry(info, 1), if !isYes then Entry(info, 0) else Entry(info, 1))
  }

  /**
   * The split as written: `conditionToYes` maps condition ids to yes-token
   * ids, but it is looked up with the token of `info[0]`. A missing
   * response or an empty list fails (the error is caught and shown).
   */
  function SplitAsWritten(response: Option<seq<TokenHolderList>>, conditionToYes: map<string, string>): (r: HolderSplit)
    ensures r.FetchFailed? <==> response.None? || |response.value| == 0
  {
    match response
    case None => FetchFailed
    case Some(info) =>
      if |info| == 0 then FetchFailed
      else
        var t := info[0].token;
        SplitOn(info, t in conditionToYes && conditionToYes[t] == t)
  }

  /**
   * As written, whenever the first token is not itself a condition id (token
   * ids and condition ids are different kinds of identifier), the yes list
   * is always `info[1]`, whichever token is the market's yes token.
   */
  lemma AsWrittenIgnoresYesToken(info: seq<TokenHolderList>, conditionToYes: map<string, string>)
    requires |info| > 0 && info[0].token !in conditionToYes
    ensures SplitAsWritten(Some(info), conditionToYes) == Split(Entry(info, 1), Entry(info, 0))
  {
  }

  /** A concrete case: the yes token is listed first, and as written its holders are shown as "no". */
  lemma AsWrittenSwapsYesAndNo()
    ensures var yes := TokenHolderList("111", []);
            var no := TokenHolderList("222", []);
            SplitAsWritten(Some([yes, no]), map["0xc1" := "111"]) == Split(Some(no), Some(yes))
  {
  }

  /** The evident intent: compare `info[0].token` with the yes token of the market being shown. */
  function SplitByCondition(response: Option<seq<TokenHolderList>>, conditionToYes: map<string, string>, conditionId: string): (r: HolderSplit)
    ensures r.FetchFailed? <==> response.None? || |response.value| == 0
  {
    match response
    case None => FetchFailed
    case Some(info) =>
      if |info| == 0 then FetchFailed
      else SplitOn(info, conditionId in conditionToYes && info[0].token == conditionToYes[conditionId])
  }

  /**
   * With the lookup by condition id, when the market's yes token is one of
   * the two listed tokens, the yes list is the one holding it and the no
   * list is the other.
   */
  lemma SplitByConditionFindsYes(info: seq<TokenHolderList>, conditionToYes: map<string, string>, conditionId: string)
    requires |info| >= 2 && info[0].token != info[1].token
    requires conditionId in conditionToYes
    requires info[0].token == conditionToYes[conditionId] || info[1].token == conditionToYes[conditionId]
    ensures var r := SplitByCondition(Some(info), conditionToYes, conditionId);
            && r.Split? && r.yes.Some? && r.no.Some?
            && r.yes.value.token == conditionToYes[conditionId]
            && r.no.value.token != conditionToYes[conditionId]
  {
  }
}

=== FILE: wrappers.dfy ===
/** Optional values: a JSON field that is missing, `undefined`, or not of the expected shape. */
module Wrappers {

  datatype Option<+T> = None | Some(value: T) {

    /** The value held, or `default` when there is none. */
    function GetOr(default: T): T {
      match this
      case Some(v) => v
      case None => default
    }
  }
}
